=== FILE: README.md ===
# EidNN core, modelled in Dafny

EidNN is a small C++ neural-network library with example applications. This
project models the exactly statable logic around its numerics and proves
properties of that model:

- the sample containers: training and test lists, the MNIST 784 → 28 × 28
  reshape and the sample copy, and the face CSV line reader with its sample cap;
- the shape rules of layers and networks:
  - how a structure vector becomes wired layers;
  - the bounds-checked layer lookup;
  - the dimension checks that make feed-forward, the setters and
    back-propagation report failure;
  - the exact weighted input `z = W·x + b` over reals;
- uniform crossover with an explicit draw oracle;
- the simulation life cycle and the evolution population machine (step, epoch,
  ordering by fitness, breeding);
- the regularisation cost;
- the car example's grid geometry: position validity, static and dynamic map,
  border-distance map, and the track colour mask;
- the face example's capture geometry, normalisation and capture flag;
- the pure helpers of the face viewer.

Floating point is modelled as `real`. The activation function, the cost
function's delta and every random choice are parameters.

The modules follow the program:

| module | models |
|---|---|
| `Wrappers` | `Option` |
| `Matrices` | Eigen matrices as rows plus explicit dimensions |
| `DataInput` | `DataInput` |
| `Layers` | `Layer` |
| `Networks` | `Network` |
| `Genetic` | `Genetic::crossover` |
| `Simulations` | `Simulation` and `SimulationFactory` |
| `Evolutions` | `Evolution` |
| `Regularizations` | `Regularization` |
| `TrackMaps` | the car example's `TrackMap` |
| `Tracks` | the car example's `Track` |
| `CarFactories` | the car example's `CarFactory` |
| `MnistData` | `MnistDataInput` |
| `Text` | Qt `QString::split` and `QString::toInt` |
| `FaceData` | `FaceDataInput` |
| `FaceCapture` | the face capture script |
| `FaceWidget` | the face viewer's helpers |

Design choices:

- Simulations hold a network pointer into an explicit heap of networks, so that
  a car factory's `copy` visibly shares its network.
- Everything else is an immutable value.
- Where a header and a `.cpp` file of different revisions disagree, the model
  follows the `.cpp` body. The layer setters have no body shown, so they follow
  the contracts documented in `lib/inc/layer.h`.

## Model

| member | source | states |
|---|---|---|
| DataInput.AddTrainingSample | lib/src/dataInput.cpp:35-41 | exactly one sample is appended at the end of the training list; the earlier samples and the test list are unchanged |
| DataInput.AddTestSample | lib/src/dataInput.cpp:43-49 | exactly one sample is appended at the end of the test list; the earlier samples and the training list are unchanged |
| DataInput.Clear | lib/src/dataInput.cpp:51-55 | both sample counts are zero afterwards |
| DataInput.NumberOfTrainingSamples | lib/src/dataInput.cpp:57-60 | the number of training samples held |
| DataInput.NumberOfTestSamples | lib/src/dataInput.cpp:62-65 | the number of test samples held |
| DataInput.CountsFollowAdditions | lib/src/dataInput.cpp:57-65 | each count follows its own list's additions only, and clearing gives back the empty data source |
| DataInput.AddSamples | lib/test/t_datainput.cpp:27-71 | after k additions the count has grown by k, the j-th added sample sits at old count + j, earlier samples and the other list are unchanged |
| Layers.New | lib/src/layer.cpp:30-35 | a layer of n neurons with k inputs each, with one activation and one weighted input per neuron |
| Layers.FromWeights | lib/src/layer.cpp:37-48 | as many biases as weight vectors are required; the neuron count is the number of weight vectors, and each neuron keeps its given weights and bias |
| Layers.FeedForwardAsWritten | lib/src/layer.cpp:55-73 | a mismatched input gives false with nothing written; a matching input reaches the end of the function with no result |
| Layers.FeedForwardAsWrittenHasNoResult | lib/src/layer.cpp:64-73 | the success path of feedForward returns no value |
| Layers.FeedForward | lib/src/layer.cpp:55-73 | succeeds iff the input has one entry per neuron input; on failure the layer is unchanged; on success z(n) = w_n·x + b_n and activation(n) = sigma(z(n)) for every neuron, the input is stored and weights and biases are kept |
| Layers.WeightedInputExample | lib/test/t_layer.cpp:45-81 | weights [[1,2],[3,4]], biases [0,2] and input [1,2] give z = [5,13] |
| Layers.SetActivationOutput | lib/inc/layer.h:249-256 | accepted iff one value per neuron, which becomes the activation while the weights, biases, input, weighted input and error are kept; a rejected call changes nothing |
| Layers.SetWeightRows | lib/inc/layer.h:75-80 | accepted iff there is one vector per neuron, each with one entry per input; then row n of the weight matrix is the n-th vector; a rejected call changes nothing; the biases and the feed-forward state (input, weighted input, activation, error) are kept |
| Layers.SetWeightMatrix | lib/inc/layer.h:82-87 | accepted iff the matrix is neurons × inputs; then it is stored entry for entry; a rejected call changes nothing; the biases and the feed-forward state are kept |
| Layers.SetWeight | lib/inc/layer.h:89-93 | every weight becomes c; the biases and the feed-forward state are kept |
| Layers.SetBiasVector | lib/inc/layer.h:102-108 | accepted iff one bias per neuron; a rejected call leaves the stored biases unchanged; the weights and the feed-forward state are kept |
| Layers.SetBiasMatrix | lib/inc/layer.h:109-114 | accepted iff the matrix is a column with one entry per neuron, whose entries become the biases; a rejected call changes nothing; the weights and the feed-forward state are kept |
| Layers.SetBias | lib/inc/layer.h:116-120 | every bias becomes c; the weights and the feed-forward state are kept |
| Layers.WeightMatrix | lib/inc/layer.h:100 | the weight matrix has neurons × inputs entries |
| Layers.BiasVector | lib/inc/layer.h:127 | the bias vector is a neurons × 1 column |
| Layers.SetThenGetWeights | lib/inc/layer.h:82-100 | a well-shaped weight matrix that is set reads back unchanged |
| Layers.SetThenGetBiases | lib/inc/layer.h:102-127 | a bias vector of the right length that is set reads back as the same column |
| Layers.SetBiasesExample | lib/test/t_layer.cpp:103-131 | a 2 × 2 layer accepts two biases, rejects three, and keeps the two it had |
| Layers.ComputeOutputLayerError | lib/inc/layer.h:156-162 | false iff the expected output does not have one entry per neuron, leaving the layer unchanged; otherwise only the error is replaced |
| Networks.BuildLayers | lib/src/network.cpp:42-53 | one layer per structure entry, layer k with structure[k] neurons and the previous entry (0 for the first) as its input count |
| Networks.New | lib/src/network.cpp:31-35 | the network is wired to its structure and its output has structure.back() entries |
| Networks.NumberOfLayers | lib/src/network.cpp:80-83 | the length of the structure, which for a wired network is the number of layers and at least 1 |
| Networks.GetLayer | lib/src/network.cpp:85-94 | no layer iff the index is at or beyond the layer count, else the layer at that index |
| Networks.GetOutputLayer | lib/src/network.cpp:133-136 | the layer at index count − 1, with structure.back() neurons |
| Networks.ConstructExample | lib/src/network.cpp:80-83 | structure {1,2,2} gives three layers with input counts 0, 1, 2 and no layer 3 |
| Networks.SameShapeKeepsWiring | lib/src/network.cpp:42-53 | changing only activations keeps a network wired to its structure |
| Networks.FeedFrom | lib/src/network.cpp:64-73 | each later layer is fed its predecessor's activation; all succeed when the input counts chain, and the first rejection stops the loop |
| Networks.FeedForward | lib/src/network.cpp:55-78 | succeeds iff the input fits layer 0; on failure the network is unchanged; on success each layer's input is its predecessor's activation and the output is the last layer's activation, with structure.back() entries |
| Networks.UpdateLayers | lib/src/network.cpp:125-128 | layers 1 .. count − 1 are updated and layer 0 is kept; the loop records one weight update per layer, for layers 1 up to count − 1 in that order |
| Networks.WithErrors | lib/src/network.cpp:111-122 | the output layer gets the cost delta as its error; every other layer k gets the hidden error computed from its own state and layer k + 1's error and weights |
| Networks.ComputeErrors | lib/src/network.cpp:111-122 | the layers with errors as above, where each hidden error uses the next layer's already computed error; the loop records the output error step and then the hidden error steps of layers count − 2 down to 0 |
| Networks.ScheduleComputesErrorsFirst | lib/src/network.cpp:111-128 | in a back-propagation schedule no error step comes after a weight update |
| Networks.ErrorsThenUpdatesIsSchedule | lib/src/network.cpp:111-128 | the error steps of the error loop followed by the update steps of the update loop form the back-propagation schedule |
| Networks.TrainLayers | lib/src/network.cpp:111-128 | the error loop and then the update loop over the fed-forward layers: layer 0 ends with its error only, every later layer is the update of that layer carrying its error, and the recorded steps follow the back-propagation schedule |
| Networks.Backpropagation | lib/src/network.cpp:96-131 | false, with no step run and the fed-forward layers kept, iff the input or the desired output has the wrong length; otherwise the steps the loops record are the output error, the hidden errors from layer count − 2 down to 0, then the updates of layers 1 up to count − 1; layer 0 is the fed-forward layer with its error, and every other layer is the update of the fed-forward layer carrying the error computed from the cost delta and the next layer's error and weights |
| Genetic.CrossWeights | lib/src/genetic.cpp:53-69 | every child weight is b's where the draw at its position is 1, else a's |
| Genetic.CrossBiases | lib/src/genetic.cpp:71-84 | every child bias is b's where the draw at its position is 1, else a's |
| Genetic.CrossLayer | lib/src/genetic.cpp:53-84 | a child layer has a's shape, with each weight and bias drawn from a or b at the same position |
| Genetic.CrossLayerUsesSetters | lib/src/genetic.cpp:53-84 | the child layer is what setWeights and then setBias make of a copy of a's layer, both accepting |
| Genetic.MatchingStructureMatchesLayers | lib/src/genetic.cpp:35-39 | when the structure check passes, each of b's first layers has the shape of a's |
| Genetic.Crossover | lib/src/genetic.cpp:30-88 | no child iff a's structure differs from the first entries of b's; otherwise a valid child with a's structure and layer count |
| Genetic.ChildGenesComeFromParents | lib/src/genetic.cpp:53-84 | every child weight and bias equals a's or b's at the same position, and the shapes are a's |
| Genetic.CrossLayerAllZero | lib/src/genetic.cpp:62-65 | with every draw 0 a crossed layer is a's layer |
| Genetic.CrossLayerAllOne | lib/src/genetic.cpp:78-81 | with every draw 1 a crossed layer carries b's weights and biases |
| Genetic.CrossLayerSelf | lib/test/t_genetic.cpp:32-52 | a layer crossed with itself is unchanged |
| Genetic.AllZeroDrawsGiveA | lib/src/genetic.cpp:41-84 | if every draw is 0 the child equals a |
| Genetic.AllOneDrawsGiveB | lib/src/genetic.cpp:41-84 | if every draw is 1 the child has b's weights and biases |
| Genetic.IdenticalParentsGiveSameChild | lib/test/t_genetic.cpp:32-52 | identical parents give a child identical to them |
| Simulations.New | lib/inc/simulation.h:101 | a new simulation is alive and has no network |
| Simulations.IsAlive | lib/src/simulation.cpp:92-95 | the alive flag, true from construction until kill |
| Simulations.DoStep | lib/src/simulation.cpp:42-49 | a living simulation runs its update; a dead one is left exactly as it is |
| Simulations.Kill | lib/src/simulation.cpp:102-105 | the simulation is dead afterwards and keeps its network and state |
| Simulations.DeadStaysDead | lib/src/simulation.cpp:42-49 | any number of steps leaves a dead simulation unchanged |
| Simulations.KilledIsFinal | lib/src/simulation.cpp:102-105 | no steps after kill revive the simulation |
| Simulations.BaseFitness | lib/src/simulation.cpp:56-59 | the base class scores every simulation 0 |
| Simulations.GetNetwork | lib/src/simulation.cpp:82-85 | the shared network pointer the simulation holds |
| Simulations.SetNetwork | lib/src/simulation.cpp:87-90 | only the network pointer is replaced |
| Simulations.SetNetworkLaws | lib/src/simulation.cpp:82-90 | setting the network a simulation already has changes nothing, and a second set overrides the first |
| Simulations.BaseCreateRandomSimulation | lib/src/simulation.cpp:118-121 | the base factory creates no simulation |
| Simulations.BaseFactoryCannotCross | lib/src/simulation.cpp:123-129 | the base factory's crossover has no simulation to fill |
| Simulations.CreateCrossover | lib/src/simulation.cpp:123-129 | the existing networks are kept; the new simulation has a network iff the structures match, and then it is a fresh network equal to the crossover child |
| Evolutions.New | lib/src/evolution.cpp:9-13 | exactly nInitial simulations, made by the factory in order, and the epoch is not over |
| Evolutions.DoStep | lib/src/evolution.cpp:20-33 | each living simulation is stepped exactly once and dead ones are kept; the epoch is over iff none was alive when the step began |
| Evolutions.Stepped | lib/src/evolution.cpp:20-33 | the population after one step as a value: living simulations stepped, dead ones kept, counts kept, epoch over iff none was alive |
| Evolutions.EpochEndingStepIsIdle | lib/src/evolution.cpp:22-32 | a step that ends the epoch changes no simulation |
| Evolutions.DoEpoch | lib/src/evolution.cpp:35-40 | a result has the epoch over, the same number of simulations and the same counts; an epoch already over returns the population unchanged; otherwise every simulation is dead at the end, and one dead at the start is unchanged |
| Evolutions.DoEpochFuelMonotone | lib/src/evolution.cpp:35-40 | an epoch that ends within some number of steps ends the same way given more |
| Evolutions.EpochEndsWhenStepsKill | lib/src/evolution.cpp:35-40 | when every step kills every simulation, an epoch ends within two steps |
| Evolutions.Insert | lib/src/evolution.cpp:49-51 | inserting into a descending list gives a descending permutation of list plus element |
| Evolutions.SortByFitness | lib/src/evolution.cpp:49-51 | the result is a permutation of the population in non-increasing fitness order |
| Evolutions.GetSimulationsOrderedByFitness | lib/src/evolution.cpp:47-53 | returns and stores a permutation of the population in non-increasing fitness order, nothing else changed |
| Evolutions.OrderedHeads | lib/src/evolution.cpp:57-59 | the head of that order is a fittest simulation and the second a fittest of the rest |
| Evolutions.Parents | lib/src/evolution.cpp:57-59 | breed's parents are a fittest simulation and a fittest of the remaining ones |
| Evolutions.Breed | lib/src/evolution.cpp:55-65 | with at least two simulations, the population becomes exactly nOffsprings crossovers of the two parents; the epoch flag is untouched |
| Evolutions.BreedSkipsNextEpoch | lib/src/evolution.cpp:35-65 | as written, after an epoch that ended, breeding leaves the flag set, so the next epoch returns the bred population unchanged, with living offspring still alive |
| Evolutions.BreedIntended | lib/src/evolution.cpp:55-65 | breeding that also clears the epoch flag: nOffsprings crossovers of the two parents, counts kept, epoch not over |
| Evolutions.BreedIntendedRunsNextEpoch | lib/src/evolution.cpp:35-65 | after the corrected breed, an epoch that ends leaves nOffsprings simulations, all dead |
| Regularizations.New | lib/src/regularization.cpp:28-31 | the given method and lambda, with weight sum 1 and sample count 1 |
| Regularizations.Default | lib/src/regularization.cpp:33-35 | method None, lambda 1, weight sum 1, sample count 1 |
| Regularizations.ToString | lib/src/regularization.cpp:41-57 | None is "None" and WeightDecay is "Weight Decay" |
| Regularizations.ToStringDistinguishes | lib/src/regularization.cpp:41-57 | different methods have different names |
| Regularizations.RegularizationCost | lib/src/regularization.cpp:58-73 | None costs 0; WeightDecay costs lambda / (2·samples) · weight sum, undefined for 0 samples |
| Regularizations.CostMonotone | lib/src/regularization.cpp:67-68 | for non-negative lambda the weight-decay cost grows with the weight sum |
| Regularizations.FreshCostIsHalfLambda | lib/src/regularization.cpp:28-31 | a freshly built weight-decay regularisation costs lambda / 2 |
| TrackMaps.Ceil | examples/lernfahrer/trackmap.cpp:44 | the ceiling c of r satisfies r ≤ c < r + 1 |
| TrackMaps.PositionValidIn | examples/lernfahrer/trackmap.cpp:39-45 | a position valid in a map lies inside the map's box and its rounded-up cell is positive |
| TrackMaps.CeilIndexInBounds | examples/lernfahrer/trackmap.cpp:41-44 | inside the bounds checked at line 41-42 the ceiled indices address a cell of the map |
| TrackMaps.GridPositionValidity | examples/lernfahrer/trackmap.cpp:39-45 | at an integer position: valid iff inside the map and the cell is positive |
| TrackMaps.IsPositionValid | examples/lernfahrer/trackmap.cpp:29-37 | valid iff valid in the static map and, when a dynamic map is set, in the dynamic map too |
| TrackMaps.SetDynamicMap | examples/lernfahrer/trackmap.cpp:47-51 | the dynamic map is stored and the flag set; the static map is kept |
| TrackMaps.ClearDynamicMap | examples/lernfahrer/trackmap.cpp:53-56 | validity becomes static-only |
| TrackMaps.ResetMap | examples/lernfahrer/trackmap.cpp:19-22 | the argument is stored unchanged as the static map |
| TrackMaps.CreateAllValidMap | examples/lernfahrer/trackmap.cpp:58-61 | an all-ones map of the stored map's dimensions, on which a position is valid iff it is inside the map |
| TrackMaps.Radius | examples/lernfahrer/trackmap.cpp:75-88 | the search radius d: every probe line below d is free and, unless the bound stopped it, line d is not |
| TrackMaps.DistanceMap | examples/lernfahrer/trackmap.cpp:63-99 | same dimensions; 0 on cells invalid in the input; on valid cells the search radius, within [1, max(1, min(rows, cols))] |
| TrackMaps.New | examples/lernfahrer/trackmap.cpp:8-12 | the constructor as written: the distance map, of the argument's rows and columns, probed through the still empty member map; no dynamic map |
| TrackMaps.ConstructorDistanceIsFlat | examples/lernfahrer/trackmap.cpp:81 | as written, every valid cell gets distance 1 and every invalid one 0 |
| TrackMaps.ConstructorExample | examples/lernfahrer/trackmap.cpp:8-12 | as written, cell (2, 1) (row 2, column 1) of a 3 × 3 all-valid grid gets 1 |
| TrackMaps.IntendedDistanceMap | examples/lernfahrer/trackmap.cpp:63-99 | the distance map probing its argument: lines 1 .. d − 1 around a valid cell are clear and line d is not, unless capped |
| TrackMaps.NewIntended | examples/lernfahrer/trackmap.cpp:8-12 | the constructor storing the intended distance map of its argument |
| TrackMaps.IntendedExample | examples/lernfahrer/trackmap.cpp:63-99 | cell (2, 1) (row 2, column 1) of a 3 × 3 all-valid grid gets 2 |
| TrackMaps.DistanceMapKeepsValidity | examples/lernfahrer/trackmap.cpp:65-94 | a position is valid in the distance map iff it is valid in the input grid |
| TrackMaps.NewIntendedKeepsValidity | examples/lernfahrer/trackmap.cpp:65-94 | a position valid in the constructor's argument stays valid in the stored map, and an invalid one stays invalid |
| Tracks.GetName | examples/lernfahrer/track.cpp:23-26 | the name given at construction |
| Tracks.CreateMap | examples/lernfahrer/track.cpp:33-48 | image-height rows and image-width columns; an entry is 1 iff its pixel is exactly (165,172,182) and 0 otherwise |
| Tracks.DrivableIffTrackColour | examples/lernfahrer/track.cpp:42-44 | a position in the colour mask is valid iff its pixel has the track colour |
| CarFactories.NewCar | examples/lernfahrer/car.cpp:7-15 | a car at rest at the origin, with no acceleration and no map yet |
| CarFactories.SetAllBiasToZero | examples/lernfahrer/carfactory.cpp:44-48 | every bias of every layer is 0, weights and shapes are untouched |
| CarFactories.CreateRandomSimulation | examples/lernfahrer/carfactory.cpp:21-32 | a living car at (400,345) heading (1,0) with the factory's map and a network whose biases are all 0 |
| CarFactories.CreateCrossover | examples/lernfahrer/carfactory.cpp:34-42 | a living car whose network is the crossover child of a's and b's with all biases 0 |
| CarFactories.Copy | examples/lernfahrer/carfactory.cpp:50-55 | a new simulation pointing at a's network object |
| MnistData.LoadMNISTSample | examples/mnist/dataInput/mnistDataInput.cpp:38-52 | no sample when idx ≥ max of the set sizes, out of range when it is below one size only; otherwise the label and a column equal to the image entry by entry (the viewer's copy at examples/face/widget.cpp:291-305 is the same) |
| MnistData.LoadedImageRoundTrip | examples/mnist/dataInput/mnistDataInput.cpp:47-49 | the loaded column's entries are the stored image |
| MnistData.ToRepresentation | examples/mnist/dataInput/mnistDataInput.cpp:97-120 | an input not of length 784 gives the flag false and the input unchanged; otherwise a 28 × 28 matrix with rep(h,w) = input(28h + w) |
| MnistData.Flatten | examples/mnist/dataInput/mnistDataInput.cpp:114 | row-major flattening of a 28 × 28 matrix |
| MnistData.RepresentationFlattenRoundTrip | examples/mnist/dataInput/mnistDataInput.cpp:109-119 | flattening the 28 × 28 representation gives back the input |
| MnistData.FlattenRepresentationRoundTrip | examples/mnist/dataInput/mnistDataInput.cpp:109-119 | reshaping a flattened 28 × 28 matrix gives back the matrix |
| MnistData.GetTestImageAsPixelValues | examples/mnist/dataInput/mnistDataInput.cpp:92-95 | the idx-th stored test image, or none when idx is out of range |
| Text.Split | examples/face/faceDataInput.cpp:49 | at least one part, and no part contains the separator |
| Text.SplitCount | examples/face/faceDataInput.cpp:49 | one part more than separators |
| Text.JoinSplit | examples/face/faceDataInput.cpp:49 | joining the parts restores the line |
| Text.SplitJoin | examples/face/faceDataInput.cpp:49 | splitting a join of separator-free parts gives the parts back |
| Text.ToInt | examples/face/faceDataInput.cpp:55 | a converted value lies in the 32-bit int range |
| Text.ToIntDecimal | examples/face/faceDataInput.cpp:55 | every 32-bit int in decimal converts back to itself |
| Text.ToIntSkipsLeadingBlank | examples/face/faceDataInput.cpp:55 | a leading blank does not change the conversion |
| Text.ToIntRejectsEmpty | examples/face/faceDataInput.cpp:58-62 | an empty token, a lone blank and a lone sign do not convert |
| FaceData.ParseTokens | examples/face/faceDataInput.cpp:50-73 | succeeds iff every token but the last converts; the converted values are appended in order to the existing ones, one per converting token |
| FaceData.ParseImgSampleLine | examples/face/faceDataInput.cpp:47-76 | succeeds iff every comma-separated token but the last converts; the values are appended without clearing, the count is the token count or one less |
| FaceData.SampleLineRoundTrip | examples/face/faceDataInput.cpp:47-76 | a line of integers each followed by ", " parses to exactly those integers; the blank after the trailing comma is ignored |
| FaceData.AddToSet | examples/face/faceDataInput.cpp:78-116 | an unopenable file adds nothing and gives false; otherwise one sample per line with that line's values and the label, at most max(cap, 1), stopping with false at the first line that does not parse and keeping earlier samples |
| FaceData.ReadSamples | examples/face/faceDataInput.cpp:88-111 | the read loop: earlier samples and the other list kept, the k-th filed sample is the k-th line's values with the label, at most max(cap, 1) filed, and false exactly when a line fails to parse, which is then the line after the last one filed |
| FaceData.AddToTraining | examples/face/faceDataInput.cpp:37-40 | an unopenable file adds nothing and gives false; otherwise the training list keeps its samples and gains one per line with that line's values and the label, at most max(cap, 1), true iff the cap was reached, stopping at the first line that does not parse; the test list is untouched |
| FaceData.AddToTest | examples/face/faceDataInput.cpp:42-45 | an unopenable file adds nothing and gives false; otherwise the test list keeps its samples and gains one per line with that line's values and the label, at most max(cap, 1), true iff the cap was reached, stopping at the first line that does not parse; the training list is untouched |
| FaceCapture.Round | examples/face/data/main.py:36-39 | round lands within one half of its argument and keeps integers, in either rounding mode |
| FaceCapture.RoundingModesAgreeOffTies | examples/face/data/main.py:36-39 | the two rounding modes differ only on halves |
| FaceCapture.EyeDistance | examples/face/data/main.py:32 | the eye distance is the non-negative difference of the horizontal eye centres |
| FaceCapture.CropRegion | examples/face/data/main.py:29-40 | the region is square; its width is within one half of 1.6 eye distances, its left edge within one half of the eye midpoint minus 0.8 eye distances, and its top within one half of the midpoint's height minus 0.2 eye distances |
| FaceCapture.CropRegionSymmetric | examples/face/data/main.py:32-40 | swapping the two eye boxes gives the same region |
| FaceCapture.CropCentredBetweenEyes | examples/face/data/main.py:33-37 | the region's horizontal centre is within 0.75 pixel of the eye midpoint |
| FaceCapture.CropRegionExample | examples/face/data/main.py:36-40 | eyes (0,0,10,10) and (40,0,10,10) give (−7, −3, 64, 64) |
| FaceCapture.SameEyeGivesEmptyCrop | examples/face/data/main.py:54-58 | identical eye boxes give an empty region, which is not shown |
| FaceCapture.Normalise | examples/face/data/main.py:65 | a grey value 0 .. 255 maps into [−1, 127/128] |
| FaceCapture.FrameStep | examples/face/data/main.py:42-83 | a frame with eyes, a non-empty crop and the flag up writes one line and clears the flag; an empty crop with the flag up makes the resize raise, ending the script with nothing written; 'q' ends the loop before 'a' is looked at; 'a' raises the flag; otherwise the flag persists |
| FaceCapture.Run | examples/face/data/main.py:13-83 | an ended loop ignores further frames, the line count never falls, and a loop still running after the frames saw no 'q' |
| FaceCapture.WritesBoundedByPresses | examples/face/data/main.py:61-83 | lines written plus a raised flag never exceed the 'a' presses |
| FaceCapture.EmptyCropEndsRun | examples/face/data/main.py:61-62 | an empty crop reaching the resize with the flag up ends the run with no line written for it or after it |
| FaceCapture.WritesAtMostPresses | examples/face/data/main.py:11-83 | from the start, a run writes at most one line per 'a' press |
| FaceCapture.QuitIgnoresLaterFrames | examples/face/data/main.py:79-81 | frames after a 'q' do not affect the outcome |
| FaceWidget.LableToOutputVector | examples/face/widget.cpp:307-312 | for a label below 2, a 2 × 1 vector with 1 at the label's row and 0 at the other |
| FaceWidget.Classify | examples/face/widget.cpp:333-336 | class 0 (no glasses) iff the first output is strictly larger than the second, otherwise class 1 (glasses), ties included |
| FaceWidget.OutputVectorClassifiesAsLable | examples/face/widget.cpp:307-312 | the target vector of a label is classified back as that label |
| FaceWidget.Former | examples/face/widget.cpp:61-69 | within the samples, (idx + size − 1) mod size: one back, with 0 going to size − 1; with no samples, 0 wraps to 2^64 − 1 in size_t arithmetic |
| FaceWidget.Next | examples/face/widget.cpp:71-79 | within the samples, (idx + 1) mod size: one on, with size − 1 going to 0 |
| FaceWidget.FormerNextInverse | examples/face/widget.cpp:61-79 | within the samples, former and next undo each other |
| FaceWidget.SelectFailed | examples/face/widget.cpp:86-94 | a failed sample is shown iff the selected row is within the list, and it is the sample at that row |
| FaceWidget.Window | examples/face/widget.cpp:480-483 | the considered points are the last min(n, count), in order |
| FaceWidget.Extremes | examples/face/widget.cpp:484-492 | the running minimum is at most and the maximum at least every value; each is its start value or one of the values |
| FaceWidget.MinMaxYAsWritten | examples/face/widget.cpp:476-495 | as written: the range bounds every considered point, and with no point considered it stays (DBL_MAX, DBL_MIN) |
| FaceWidget.MinMaxYAsWrittenMissesMax | examples/face/widget.cpp:479 | as written, when all points are at most 0 the maximum is the smallest positive double, above every point |
| FaceWidget.MinMaxYAsWrittenZeroExample | examples/face/widget.cpp:479 | as written, four points at 0 report a maximum other than 0 |
| FaceWidget.MinMaxY | examples/face/widget.cpp:476-495 | the range bounds every considered point, with the maximum starting at the lowest double, and with no point considered it stays (DBL_MAX, −DBL_MAX) |
| FaceWidget.MinMaxYAttained | examples/face/widget.cpp:476-495 | over a non-empty window of doubles, both the minimum and the maximum are points of the window |
| FaceWidget.AxisRange | examples/face/widget.cpp:381-383 | lower is 0.95 times the smaller minimum, raised to 0 if below; upper is 1.2 times the larger maximum, lowered to 100 if above |
| FaceWidget.AxisRangeCoversData | examples/face/widget.cpp:369-384 | for non-negative data the axis reaches below both minima and, unless capped at 100, above both maxima |
| FaceWidget.SelectedCostFunction | examples/face/widget.cpp:463-474 | quadratic iff the combo index is 0, cross-entropy otherwise |
| FaceWidget.DisplayValue | examples/face/widget.cpp:325 | the grey level is within one half of (v + 1)·128, rounded with halves away from zero; none exactly when that rounding leaves 0 .. 255, where the `uint8_t` conversion is undefined |
| FaceWidget.DisplayInvertsNormalise | examples/face/widget.cpp:325 | displaying a captured and normalised grey value gives back that grey value |

## Left out

- The logistic sigmoid and the cost functions: transcendental floating point. The activation function and the cost function's delta are parameters.
- Error values, partial derivatives and gradient descent in back-propagation: floating-point numerics. Each layer's error and each layer's update are parameters. Modelled are the dimension checks, the order in which the loops run their steps, and which values each step reads: the output error comes from the cost delta, and a hidden layer's error from that layer and the next layer's error and weights.
- Random weight initialisation, the random draws of crossover and the mutation variant of crossover: random distributions. Draws are an oracle `nat -> bool`, and the mutation rate passed to crossover is not used.
- Threads, the mutex and atomics of the viewer, and asynchronous training: concurrency.
- Simulation clocks (last update, age) and the car physics: wall-clock time and float integration.
- File and device I/O: the face file is a sequence of lines, or none when it cannot be opened. The MNIST reader, network save and load, the camera, face detection, resizing and windows are not modelled.
- The Qt interface: charts, image painting, widgets and the `main.cpp` files.
- numpy slicing of the crop region out of the face image: a negative start counts from the far edge and a start past the edge gives an empty slice, so the crop's shape is not computed. `FaceCapture.ShowCrop` takes the shape as parameters and `FaceCapture.Frame` records whether the crop is empty.
- The crop region geometry is computed over reals, so the floating-point rounding of `0.8·d` and similar products is not modelled.
- Python's rounding of halves is not pinned by the script: `FaceCapture.RoundingMode` covers both Python 2 and Python 3.
- The capture script writes floating-point values, and the viewer reads those with a float conversion that is not part of this model. `FaceData` reads integer tokens, so `FaceData.SampleLineRoundTrip` is stated for integer lines.
- Neurons' initial weights are random in the library and zeros in `Layers.New`, since no property depends on them.
- Evolutions.SortByFitness: `std::sort` leaves the order of equally fit simulations unspecified; the model inserts stably, and only properties that hold for every order (permutation, descending) are claimed.
- Evolutions.DoEpoch: the library loops until the epoch is over and may never stop; the model takes a step budget and reports none when it runs out.
- Networks.New: an empty structure is excluded by a precondition. The library reads `structure.back()` of it, which is undefined behaviour.
- Genetic.Crossover: the structure check reads b's structure only as far as a's, and a shorter b would be read past its end, so b is required to be at least as long.
- Genetic.Crossover: the draw positions are laid out layer by layer, weights row by row and then biases, matching the loop order; the sequence of random numbers itself is not modelled.
- CarFactories.CreateCrossover: parents whose structures differ are excluded by a precondition. The library's crossover returns a null network for them and `setAllBiasToZero` then dereferences it, which is undefined behaviour.
- MnistData.ToRepresentation: an input with 784 rows and no column is excluded by a precondition. The library then reads `input(k, 0)` past the matrix, which is undefined behaviour.
- Layers.FromWeights: every weight vector is required to have the same length, the layer's input count. The library asserts only that there are as many biases as weight vectors.
- Simulations.CreateCrossover: the factory's random simulation is a parameter, since creating it is a virtual call.
- CarFactories.CreateRandomSimulation: the car class at this revision has no map setter, direction setter or network, so the car's network is a parameter and the car record carries position, direction and map itself.
- The track passes a colour-mask matrix where the car factory expects a track map; building a factory from a track is not modelled.
- Regularizations.RegularizationCost: with zero samples the library divides by zero; the model returns none.
- TrackMaps.Radius: the probe coordinates `n + i` and `m - r` are `size_t` expressions, so a coordinate that would be negative wraps to nearly 2^64 and the upper bound check rejects it. The model computes them as integers, where such a coordinate is negative and the lower bound check rejects it. The verdict is the same, so the wrap-around itself is not modelled.
- Text.ToInt: QString::toInt is modelled as base 10 with surrounding white space, an optional sign and the 32-bit range; locale-specific digit grouping is not modelled. White space is ASCII only (space, tab, line feed, vertical tab, form feed, carriage return), while QChar::isSpace also accepts U+0085, U+00A0 and the other Unicode space separators, so a token padded with those is rejected by the model and accepted by the library.
- FaceWidget.Window: `count() − nbrEntries` is computed in unsigned arithmetic and converted back to int; the model takes the two's-complement result, which is count − n for n below 2^31.
- The conversion of a parsed int to float in the face reader is exact only up to 2^24; the model keeps the exact value.
- Networks hold layers by value; only `Simulations` and `CarFactories` use a heap of networks, to show sharing.
- `Layer::activationIn` follows the header's getter, since the `.cpp` body of this revision stores activations per neuron.

## Findings

| source | as written | input that shows it | evidently intended | confidence | as-written member | corrected member |
|---|---|---|---|---|---|---|
| lib/src/layer.cpp:55-73 | `feedForward` returns `false` on a size mismatch but has no `return` on the success path, so its result is undefined there | any layer and an input with one entry per neuron input, e.g. a 2 × 2 layer and [0, 0] | return `true` after the per-neuron loop | not executed | Layers.FeedForwardAsWrittenHasNoResult | Layers.FeedForward |
| examples/lernfahrer/trackmap.cpp:81 | the distance search probes the member map, which is still empty while the constructor computes the distance map of its argument, so every valid cell gets distance 1 | a 3 × 3 grid of ones: cell (2, 1) (row 2, column 1) gets 1 | probe the argument map, giving that cell 2 | not executed | TrackMaps.ConstructorDistanceIsFlat | TrackMaps.IntendedDistanceMap |
| lib/src/evolution.cpp:55-65 | `breed` replaces the population but leaves `m_epochOver` true, so the next `doEpoch` returns at once without stepping | an epoch that has ended, then `breed` with a living offspring: the next `doEpoch` returns the bred population unchanged, that offspring still alive | clear the epoch flag in `breed` | not executed | Evolutions.BreedSkipsNextEpoch | Evolutions.BreedIntended |
| examples/face/widget.cpp:479 | the maximum starts at `std::numeric_limits<double>::min()`, the smallest positive double, so it is never below that value | four points with y = 0: the maximum reported is 2.2250738585072014e-308, not 0 | start at the lowest double, `-std::numeric_limits<double>::max()` | not executed | FaceWidget.MinMaxYAsWrittenMissesMax | FaceWidget.MinMaxYAttained |

=== FILE: carfactory.dfy ===
/**
 * CarFactory (car example): creates cars on a track, breeds them by uniform
 * crossover and copies them. Every network it hands out has all biases zero.
 */
module CarFactories {
  import opened Wrappers
  import Networks
  import Layers
  import Genetic
  import TrackMaps
  import opened Simulations

  datatype Vec2 = Vec2(x: real, y: real)

  /** The car's own state; its network lives in the simulation's pointer. */
  datatype Car = Car(position: Vec2, direction: Vec2, speed: Vec2, acceleration: real, track: Option<TrackMaps.TrackMap>)

  datatype CarFactory = CarFactory(track: TrackMaps.TrackMap)

  /**
   * Car(): standing still at the origin, without a map. The library leaves
   * the direction vector uninitialised; the model sets it to (0, 0), and no
   * contract depends on that value.
   */
  function NewCar(): (c: Car)
    ensures c.position == Vec2(0.0, 0.0) && c.speed == Vec2(0.0, 0.0) && c.acceleration == 0.0
    ensures c.track.None?
  {
    Car(Vec2(0.0, 0.0), Vec2(0.0, 0.0), Vec2(0.0, 0.0), 0.0, None)
  }

  /** The starting pose on the track: position (400, 345), heading along +x. */
  const StartPosition := Vec2(400.0, 345.0)
  const StartDirection := Vec2(1.0, 0.0)

  ghost predicate BiasesZero(net: Networks.Network) {
    forall i, n :: 0 <= i < |net.layers| && 0 <= n < |net.layers[i].biases| ==> net.layers[i].biases[n] == 0.0
  }

  /** `r` is `net` with every bias zeroed: same structure, same weights. */
  ghost predicate ZeroedFrom(r: Networks.Network, net: Networks.Network) {
    && Networks.Valid(r)
    && r.structure == net.structure && r.output == net.output
    && |r.layers| == |net.layers|
    && (forall i :: 0 <= i < |r.layers| ==> r.layers[i].weights == net.layers[i].weights)
    && BiasesZero(r)
  }

  /** setAllBiasToZero: sets the bias of every layer, one layer after the other, to 0. */
  method SetAllBiasToZero(net: Networks.Network) returns (r: Networks.Network)
    requires Networks.Valid(net)
    ensures ZeroedFrom(r, net)
  {
    var ls := net.layers;
    var i := 0;
    while i < Networks.NumberOfLayers(net)
      invariant 0 <= i <= |ls| && |ls| == |net.layers|
      invariant forall j :: 0 <= j < |ls| ==>
                  && ls[j].Valid()
                  && ls[j].nNeurons == net.layers[j].nNeurons
                  && ls[j].nInputs == net.layers[j].nInputs
                  && ls[j].weights == net.layers[j].weights
      invariant forall j, n :: 0 <= j < i && 0 <= n < |ls[j].biases| ==> ls[j].biases[n] == 0.0
    {
      ls := ls[i := Layers.SetBias(ls[i], 0.0)];
      i := i + 1;
    }
    r := net.(layers := ls);
  }

  /**
   * createRandomSimulation: a new car (whose constructor builds `carNet`),
   * given the factory's map, the start pose, and its network's biases zeroed.
   * The network is stored in a fresh heap cell.
   */
  method CreateRandomSimulation(f: CarFactory, heap: Heap, carNet: Networks.Network) returns (r: Made<Car>)
    requires Networks.Valid(carNet)
    ensures |r.heap| == |heap| + 1 && r.heap[..|heap|] == heap
    ensures IsAlive(r.sim) && r.sim.network == Ptr(|heap|)
    ensures r.sim.body.position == StartPosition && r.sim.body.direction == StartDirection
    ensures r.sim.body.track == Some(f.track)
    ensures ZeroedFrom(Deref(r.heap, r.sim.network), carNet)
  {
    var car := NewCar().(track := Some(f.track), position := StartPosition, direction := StartDirection);
    var net := SetAllBiasToZero(carNet);
    r := Made(New(car).(network := Ptr(|heap|)), heap + [net]);
  }

  /**
   * createCrossover: the parents' networks crossed uniformly, biases zeroed,
   * set on a fresh car. The structures must match: otherwise the crossover
   * yields null and zeroing its biases dereferences it.
   */
  method CreateCrossover(f: CarFactory, a: Sim<Car>, b: Sim<Car>, heap: Heap, draw: nat -> bool, carNet: Networks.Network)
    returns (r: Made<Car>)
    requires Points(heap, a.network) && Points(heap, b.network)
    requires Networks.Valid(Deref(heap, a.network)) && Networks.Valid(Deref(heap, b.network))
    requires |Deref(heap, a.network).structure| <= |Deref(heap, b.network).structure|
    requires Genetic.StructureMatches(Deref(heap, a.network), Deref(heap, b.network))
    requires Networks.Valid(carNet)
    ensures |heap| <= |r.heap| && r.heap[..|heap|] == heap
    ensures IsAlive(r.sim) && r.sim.body.position == StartPosition && r.sim.body.track == Some(f.track)
    ensures Points(r.heap, r.sim.network)
    ensures ZeroedFrom(Deref(r.heap, r.sim.network), Genetic.Crossover(Deref(heap, a.network), Deref(heap, b.network), draw).value)
  {
    var child := Genetic.Crossover(Deref(heap, a.network), Deref(heap, b.network), draw);
    var cr := SetAllBiasToZero(child.value);
    var heap1 := heap + [cr];
    var crs := CreateRandomSimulation(f, heap1, carNet);
    r := Made(SetNetwork(crs.sim, Ptr(|heap|)), crs.heap);
    assert r.heap[..|heap1|] == heap1;
  }

  /**
   * copy: a fresh car that shares the original's network pointer; the network
   * is not duplicated: both simulations hold the same address, so a later
   * change to that heap cell is seen through either.
   */
  method Copy(f: CarFactory, a: Sim<Car>, heap: Heap, carNet: Networks.Network) returns (r: Made<Car>)
    requires Networks.Valid(carNet)
    ensures |r.heap| == |heap| + 1 && r.heap[..|heap|] == heap
    ensures r.sim.network == a.network
    ensures Points(heap, a.network) ==> Deref(r.heap, r.sim.network) == Deref(heap, a.network)
    ensures IsAlive(r.sim) && r.sim.body.position == StartPosition && r.sim.body.track == Some(f.track)
  {
    var crs := CreateRandomSimulation(f, heap, carNet);
    r := Made(SetNetwork(crs.sim, a.network), crs.heap);
    assert Points(heap, a.network) ==> r.heap[a.network.addr] == r.heap[..|heap|][a.network.addr];
  }
}

=== FILE: data_input.dfy ===
/**
 * DataInput: the two append-only sample lists (training and test) every data
 * source of the library fills. A sample pairs an input column with an expected
 * output; the output type is a parameter because the face example stores a bare
 * integer label where the library stores an output vector.
 */
module DataInput {

  datatype DataElement<O> = DataElement(input: seq<real>, output: O)

  datatype DataInput<O> = DataInput(training: seq<DataElement<O>>, test: seq<DataElement<O>>)

  /** A data source with no samples yet. */
  function Empty<O>(): DataInput<O> {
    DataInput([], [])
  }

  /** Appends one sample at the end of the training list; the test list is untouched. */
  function AddTrainingSample<O>(d: DataInput<O>, input: seq<real>, output: O): (r: DataInput<O>)
    ensures |r.training| == |d.training| + 1
    ensures r.training[..|d.training|] == d.training
    ensures r.training[|d.training|] == DataElement(input, output)
    ensures r.test == d.test
  {
    d.(training := d.training + [DataElement(input, output)])
  }

  /** Appends one sample at the end of the test list; the training list is untouched. */
  function AddTestSample<O>(d: DataInput<O>, input: seq<real>, output: O): (r: DataInput<O>)
    ensures |r.test| == |d.test| + 1
    ensures r.test[..|d.test|] == d.test
    ensures r.test[|d.test|] == DataElement(input, output)
    ensures r.training == d.training
  {
    d.(test := d.test + [DataElement(input, output)])
  }

  /** Removes every training and test sample. */
  function Clear<O>(d: DataInput<O>): (r: DataInput<O>)
    ensures NumberOfTrainingSamples(r) == 0 && NumberOfTestSamples(r) == 0
  {
    DataInput([], [])
  }

  function NumberOfTrainingSamples<O>(d: DataInput<O>): (n: nat)
    ensures n == |d.training|
  {
    |d.training|
  }

  function NumberOfTestSamples<O>(d: DataInput<O>): (n: nat)
    ensures n == |d.test|
  {
    |d.test|
  }

  /**
   * Adds the given samples one after another, to the training list when
   * `toTraining` holds and to the test list otherwise. After k additions the
   * count has grown by k and the j-th added sample sits at index old-count + j.
   */
  method AddSamples<O>(d: DataInput<O>, samples: seq<DataElement<O>>, toTraining: bool)
    returns (r: DataInput<O>)
    ensures toTraining ==> r.test == d.test && NumberOfTrainingSamples(r) == NumberOfTrainingSamples(d) + |samples|
    ensures !toTraining ==> r.training == d.training && NumberOfTestSamples(r) == NumberOfTestSamples(d) + |samples|
    ensures toTraining ==> forall j :: 0 <= j < |samples| ==> r.training[|d.training| + j] == samples[j]
    ensures !toTraining ==> forall j :: 0 <= j < |samples| ==> r.test[|d.test| + j] == samples[j]
    ensures toTraining ==> r.training[..|d.training|] == d.training
    ensures !toTraining ==> r.test[..|d.test|] == d.test
  {
    r := d;
    var k := 0;
    while k < |samples|
      invariant 0 <= k <= |samples|
      invariant toTraining ==> r.test == d.test && |r.training| == |d.training| + k
      invariant !toTraining ==> r.training == d.training && |r.test| == |d.test| + k
      invariant toTraining ==> r.training == d.training + samples[..k]
      invariant !toTraining ==> r.test == d.test + samples[..k]
    {
      if toTraining {
        r := AddTrainingSample(r, samples[k].input, samples[k].output);
      } else {
        r := AddTestSample(r, samples[k].input, samples[k].output);
      }
      assert samples[..k + 1] == samples[..k] + [samples[k]];
      k := k + 1;
    }
    assert samples[..k] == samples;
  }

  /** The count queries report the list lengths, and clearing resets both to zero. */
  lemma CountsFollowAdditions<O>(d: DataInput<O>, input: seq<real>, output: O)
    ensures NumberOfTrainingSamples(AddTrainingSample(d, input, output)) == NumberOfTrainingSamples(d) + 1
    ensures NumberOfTestSamples(AddTrainingSample(d, input, output)) == NumberOfTestSamples(d)
    ensures NumberOfTestSamples(AddTestSample(d, input, output)) == NumberOfTestSamples(d) + 1
    ensures NumberOfTrainingSamples(AddTestSample(d, input, output)) == NumberOfTrainingSamples(d)
    ensures Clear(AddTestSample(AddTrainingSample(d, input, output), input, output)) == Empty()
  {
  }
}

=== FILE: evolution.dfy ===
/**
 * Evolution: a population of simulations that are stepped until all have died
 * (an epoch), then replaced by offspring of the two fittest. The simulation
 * kind is a type parameter; its hooks (is it alive, one doStep, its fitness,
 * the factory's creations) are parameters.
 */
module Evolutions {
  import opened Wrappers

  datatype Evolution<S> = Evolution(nInitials: nat, nOffsprings: nat, sims: seq<S>, epochOver: bool)

  /**
   * Evolution(nInitial, nNext, factory): nInitial simulations, the i-th being the
   * factory's i-th random creation; the epoch is not over.
   */
  function New<S>(nInitial: nat, nNext: nat, createRandom: nat -> S): (e: Evolution<S>)
    ensures e.nInitials == nInitial && e.nOffsprings == nNext && !e.epochOver
    ensures |e.sims| == nInitial && forall i :: 0 <= i < nInitial ==> e.sims[i] == createRandom(i)
  {
    Evolution(nInitial, nNext, seq(nInitial, i requires 0 <= i => createRandom(i)), false)
  }

  predicate AnyAlive<S>(sims: seq<S>, alive: S -> bool) {
    exists i :: 0 <= i < |sims| && alive(sims[i])
  }

  /**
   * doStep: every simulation alive at this point takes one step, the others are
   * untouched; the epoch is over exactly when none was alive.
   */
  method DoStep<S>(e: Evolution<S>, alive: S -> bool, step: S -> S) returns (r: Evolution<S>)
    ensures r.nInitials == e.nInitials && r.nOffsprings == e.nOffsprings
    ensures |r.sims| == |e.sims|
    ensures forall i :: 0 <= i < |e.sims| ==> r.sims[i] == (if alive(e.sims[i]) then step(e.sims[i]) else e.sims[i])
    ensures r.epochOver <==> forall i :: 0 <= i < |e.sims| ==> !alive(e.sims[i])
    ensures r == Stepped(e, alive, step)
  {
    var anyLive := false;
    var sims := e.sims;
    var i := 0;
    while i < |sims|
      invariant 0 <= i <= |sims| && |sims| == |e.sims|
      invariant forall j :: 0 <= j < i ==> sims[j] == (if alive(e.sims[j]) then step(e.sims[j]) else e.sims[j])
      invariant forall j :: i <= j < |sims| ==> sims[j] == e.sims[j]
      invariant anyLive <==> exists j :: 0 <= j < i && alive(e.sims[j])
    {
      if alive(sims[i]) {
        sims := sims[i := step(sims[i])];
        anyLive := true;
      }
      i := i + 1;
    }
    r := e.(sims := sims, epochOver := !anyLive);
  }

  /** The population after one doStep, as a value for reasoning about epochs. */
  function Stepped<S>(e: Evolution<S>, alive: S -> bool, step: S -> S): (r: Evolution<S>)
    ensures r.nInitials == e.nInitials && r.nOffsprings == e.nOffsprings && |r.sims| == |e.sims|
    ensures forall i :: 0 <= i < |e.sims| && !alive(e.sims[i]) ==> r.sims[i] == e.sims[i]
    ensures forall i :: 0 <= i < |e.sims| && alive(e.sims[i]) ==> r.sims[i] == step(e.sims[i])
    ensures r.epochOver <==> forall i :: 0 <= i < |e.sims| ==> !alive(e.sims[i])
  {
    e.(sims := seq(|e.sims|, i requires 0 <= i < |e.sims| => if alive(e.sims[i]) then step(e.sims[i]) else e.sims[i]),
       epochOver := !AnyAlive(e.sims, alive))
  }

  /** A step that ends the epoch had nobody to step: the population is left as it was. */
  lemma EpochEndingStepIsIdle<S>(e: Evolution<S>, alive: S -> bool, step: S -> S)
    requires Stepped(e, alive, step).epochOver
    ensures Stepped(e, alive, step).sims == e.sims
  {
  }

  /**
   * doEpoch: steps until the epoch is over. The loop need not terminate, so it
   * runs at most `fuel` steps: Some(e') when the epoch ended within them.
   */
  function DoEpoch<S>(e: Evolution<S>, alive: S -> bool, step: S -> S, fuel: nat): (r: Option<Evolution<S>>)
    decreases fuel
    ensures r.Some? ==> r.value.epochOver && |r.value.sims| == |e.sims|
    ensures r.Some? ==> r.value.nOffsprings == e.nOffsprings && r.value.nInitials == e.nInitials
    ensures e.epochOver ==> r == Some(e)
    ensures r.Some? && !e.epochOver ==> forall i :: 0 <= i < |r.value.sims| ==> !alive(r.value.sims[i])
    ensures r.Some? ==> forall i :: 0 <= i < |e.sims| && !alive(e.sims[i]) ==> r.value.sims[i] == e.sims[i]
  {
    if e.epochOver then Some(e)
    else if fuel == 0 then None
    else DoEpoch(Stepped(e, alive, step), alive, step, fuel - 1)
  }

  /** More fuel never changes the outcome of an epoch that already ended. */
  lemma {:induction false} DoEpochFuelMonotone<S>(e: Evolution<S>, alive: S -> bool, step: S -> S, fuel: nat, more: nat)
    requires DoEpoch(e, alive, step, fuel).Some?
    requires more >= fuel
    ensures DoEpoch(e, alive, step, more) == DoEpoch(e, alive, step, fuel)
    decreases fuel
  {
    if !e.epochOver {
      DoEpochFuelMonotone(Stepped(e, alive, step), alive, step, fuel - 1, more - 1);
    }
  }

  /** When one step always kills a simulation, every epoch ends within two steps. */
  lemma EpochEndsWhenStepsKill<S>(e: Evolution<S>, alive: S -> bool, step: S -> S)
    requires forall s :: !alive(step(s))
    ensures DoEpoch(e, alive, step, 2).Some?
  {
    var e1 := Stepped(e, alive, step);
    assert forall i :: 0 <= i < |e1.sims| ==> !alive(e1.sims[i]) by {
      forall i | 0 <= i < |e1.sims|
        ensures !alive(e1.sims[i])
      {
        if alive(e.sims[i]) {
          assert e1.sims[i] == step(e.sims[i]);
        }
      }
    }
    assert Stepped(e1, alive, step).epochOver;
  }

  /** Ordered by fitness from best to worst. */
  predicate Descending<S>(s: seq<S>, fitness: S -> real) {
    forall i, j :: 0 <= i < j < |s| ==> fitness(s[i]) >= fitness(s[j])
  }

  /** Inserts `x` in front of the first entry it is at least as fit as. */
  function Insert<S>(x: S, s: seq<S>, fitness: S -> real): (r: seq<S>)
    requires Descending(s, fitness)
    ensures |r| == |s| + 1
    ensures multiset(r) == multiset(s) + multiset{x}
    ensures Descending(r, fitness)
  {
    if |s| == 0 then [x]
    else if fitness(x) >= fitness(s[0]) then [x] + s
    else
      var t := Insert(x, s[1..], fitness);
      assert s == [s[0]] + s[1..];
      TailBelowHead(s, t, x, fitness);
      [s[0]] + t
  }

  /** Whatever is inserted after a fitter head stays below the head. */
  lemma TailBelowHead<S>(s: seq<S>, t: seq<S>, x: S, fitness: S -> real)
    requires |s| > 0 && Descending(s, fitness) && fitness(x) < fitness(s[0])
    requires multiset(t) == multiset(s[1..]) + multiset{x}
    ensures forall k :: 0 <= k < |t| ==> fitness(t[k]) <= fitness(s[0])
  {
    forall k | 0 <= k < |t|
      ensures fitness(t[k]) <= fitness(s[0])
    {
      assert t[k] in multiset(t);
      if t[k] != x {
        assert t[k] in multiset(s[1..]);
        var j :| 0 <= j < |s[1..]| && s[1..][j] == t[k];
        assert s[j + 1] == t[k];
      }
    }
  }

  /** An insertion sort standing for std::sort with the comparator "fitter first". */
  function SortByFitness<S>(s: seq<S>, fitness: S -> real): (r: seq<S>)
    ensures multiset(r) == multiset(s)
    ensures Descending(r, fitness)
  {
    if |s| == 0 then []
    else
      assert s == [s[0]] + s[1..];
      Insert(s[0], SortByFitness(s[1..], fitness), fitness)
  }

  /**
   * getSimulationsOrderedByFitness: reorders the population from fittest to
   * least fit (a permutation) and returns it.
   */
  function GetSimulationsOrderedByFitness<S>(e: Evolution<S>, fitness: S -> real): (r: (seq<S>, Evolution<S>))
    ensures multiset(r.0) == multiset(e.sims) && Descending(r.0, fitness)
    ensures r.1.sims == r.0
    ensures r.1.epochOver == e.epochOver && r.1.nOffsprings == e.nOffsprings && r.1.nInitials == e.nInitials
  {
    var ord := SortByFitness(e.sims, fitness);
    (ord, e.(sims := ord))
  }

  /** The head of a descending permutation is a fittest element, its second entry a fittest of the rest. */
  lemma OrderedHeads<S(!new)>(ord: seq<S>, sims: seq<S>, fitness: S -> real)
    requires multiset(ord) == multiset(sims) && Descending(ord, fitness) && |ord| >= 2
    ensures forall s :: s in sims ==> fitness(s) <= fitness(ord[0])
    ensures multiset(sims) - multiset{ord[0]} == multiset(ord[1..])
    ensures forall s :: s in multiset(ord[1..]) ==> fitness(s) <= fitness(ord[1])
  {
    assert ord == [ord[0]] + ord[1..];
    forall s | s in sims
      ensures fitness(s) <= fitness(ord[0])
    {
      assert s in multiset(ord);
      var j :| 0 <= j < |ord| && ord[j] == s;
    }
    forall s | s in multiset(ord[1..])
      ensures fitness(s) <= fitness(ord[1])
    {
      var j :| 1 <= j < |ord| && ord[j] == s by {
        assert s in ord[1..];
      }
    }
  }

  /** The two parents breed picks: the first two of the ordered population. */
  function Parents<S(!new)>(e: Evolution<S>, fitness: S -> real): (p: (S, S))
    requires |e.sims| >= 2
    ensures p.0 in multiset(e.sims)
    ensures forall s :: s in e.sims ==> fitness(s) <= fitness(p.0)
    ensures p.1 in multiset(e.sims) - multiset{p.0}
    ensures forall s :: s in multiset(e.sims) - multiset{p.0} ==> fitness(s) <= fitness(p.1)
  {
    var ord := GetSimulationsOrderedByFitness(e, fitness).0;
    assert |ord| == |e.sims| by {
      assert |multiset(ord)| == |multiset(e.sims)|;
    }
    OrderedHeads(ord, e.sims, fitness);
    assert ord[1] in ord[1..];
    (ord[0], ord[1])
  }

  /**
   * breed: the population is replaced by nOffsprings crossovers of the two
   * fittest simulations (the i-th from the factory's i-th crossover). It needs
   * at least two simulations to pick from.
   */
  function Breed<S(!new)>(e: Evolution<S>, fitness: S -> real, cross: (S, S, nat) -> S): (r: Evolution<S>)
    requires |e.sims| >= 2
    ensures |r.sims| == e.nOffsprings
    ensures forall i :: 0 <= i < |r.sims| ==> r.sims[i] == cross(Parents(e, fitness).0, Parents(e, fitness).1, i)
    ensures r.epochOver == e.epochOver && r.nOffsprings == e.nOffsprings && r.nInitials == e.nInitials
  {
    var p := Parents(e, fitness);
    e.(sims := seq(e.nOffsprings, i requires 0 <= i => cross(p.0, p.1, i)))
  }

  /**
   * As written, breed leaves the epoch flag set by the epoch that just ended,
   * so the next doEpoch returns at once: offspring that are alive stay alive
   * and are never stepped.
   */
  lemma BreedSkipsNextEpoch<S(!new)>(e: Evolution<S>, fitness: S -> real, cross: (S, S, nat) -> S,
                                     alive: S -> bool, step: S -> S, fuel: nat, i: nat)
    requires |e.sims| >= 2 && e.epochOver
    requires i < e.nOffsprings && alive(Breed(e, fitness, cross).sims[i])
    ensures DoEpoch(Breed(e, fitness, cross), alive, step, fuel) == Some(Breed(e, fitness, cross))
    ensures alive(DoEpoch(Breed(e, fitness, cross), alive, step, fuel).value.sims[i])
  {
  }

  /** breed as intended: the offspring start a fresh epoch. */
  function BreedIntended<S(!new)>(e: Evolution<S>, fitness: S -> real, cross: (S, S, nat) -> S): (r: Evolution<S>)
    requires |e.sims| >= 2
    ensures |r.sims| == e.nOffsprings
    ensures forall i :: 0 <= i < |r.sims| ==> r.sims[i] == cross(Parents(e, fitness).0, Parents(e, fitness).1, i)
    ensures !r.epochOver && r.nOffsprings == e.nOffsprings && r.nInitials == e.nInitials
  {
    Breed(e, fitness, cross).(epochOver := false)
  }

  /** After the intended breed, an epoch that ends has run every offspring until it died. */
  lemma BreedIntendedRunsNextEpoch<S(!new)>(e: Evolution<S>, fitness: S -> real, cross: (S, S, nat) -> S,
                                            alive: S -> bool, step: S -> S, fuel: nat)
    requires |e.sims| >= 2
    requires DoEpoch(BreedIntended(e, fitness, cross), alive, step, fuel).Some?
    ensures var r := DoEpoch(BreedIntended(e, fitness, cross), alive, step, fuel).value;
            |r.sims| == e.nOffsprings && forall i :: 0 <= i < |r.sims| ==> !alive(r.sims[i])
  {
  }
}

=== FILE: face_capture.dfy ===
/**
 * The face capture script (face example): from two detected eye rectangles it
 * derives a square crop around the eyes, normalises the crop's grey values to
 * [-1, 1) and, one frame after the user pressed 'a', writes them as one sample
 * line; 'q' ends the capture. Detection, camera, resizing and windows are not
 * modelled; geometry is over the reals.
 */
module FaceCapture {

  /** Python's round: Python 3 rounds halves to even, Python 2 away from zero; the script pins neither. */
  datatype RoundingMode = HalfEven | HalfAwayFromZero

  function Round(r: real, mode: RoundingMode): (n: int)
    ensures -0.5 <= n as real - r <= 0.5
    ensures r == r.Floor as real ==> n == r.Floor
  {
    match mode
    case HalfAwayFromZero =>
      if r >= 0.0 then (r + 0.5).Floor else -((-r + 0.5).Floor)
    case HalfEven =>
      var f := r.Floor;
      var frac := r - f as real;
      if frac < 0.5 then f
      else if frac > 0.5 then f + 1
      else if f % 2 == 0 then f else f + 1
  }

  /** The two modes differ only on halves. */
  lemma RoundingModesAgreeOffTies(r: real)
    requires r - r.Floor as real != 0.5
    ensures Round(r, HalfEven) == Round(r, HalfAwayFromZero)
  {
  }

  /** A detector rectangle: top-left corner, width and height in pixels. */
  datatype Rect = Rect(x: int, y: int, w: int, h: int)

  datatype Region = Region(x: int, y: int, w: int, h: int)

  function Abs(r: real): real {
    if r < 0.0 then -r else r
  }

  function CentreX(e: Rect): real {
    e.x as real + e.w as real / 2.0
  }

  function CentreY(e: Rect): real {
    e.y as real + e.h as real / 2.0
  }

  /** The horizontal distance between the eye centres. */
  function EyeDistance(e1: Rect, e2: Rect): (d: real)
    ensures d >= 0.0
    ensures d == CentreX(e1) - CentreX(e2) || d == CentreX(e2) - CentreX(e1)
  {
    Abs(CentreX(e1) - CentreX(e2))
  }

  /**
   * The crop: centred horizontally on the eye midpoint, 1.6 eye distances wide,
   * starting 0.2 eye distances above the midpoint, and as high as it is wide.
   */
  function CropRegion(e1: Rect, e2: Rect, mode: RoundingMode): (r: Region)
    ensures r.h == r.w && r.w >= 0
    ensures -0.5 <= r.w as real - 1.6 * EyeDistance(e1, e2) <= 0.5
    ensures -0.5 <= r.x as real - ((CentreX(e1) + CentreX(e2)) / 2.0 - 0.8 * EyeDistance(e1, e2)) <= 0.5
    ensures -0.5 <= r.y as real - ((CentreY(e1) + CentreY(e2)) / 2.0 - 0.2 * EyeDistance(e1, e2)) <= 0.5
  {
    var d := EyeDistance(e1, e2);
    var cx := (CentreX(e1) + CentreX(e2)) / 2.0;
    var cy := (CentreY(e1) + CentreY(e2)) / 2.0;
    var w := Round(1.6 * d, mode);
    Region(Round(cx - 0.8 * d, mode), Round(cy - d * 0.2, mode), w, w)
  }

  /** Which eye the detector lists first does not matter. */
  lemma CropRegionSymmetric(e1: Rect, e2: Rect, mode: RoundingMode)
    ensures CropRegion(e1, e2, mode) == CropRegion(e2, e1, mode)
  {
    assert (CentreX(e1) + CentreX(e2)) / 2.0 == (CentreX(e2) + CentreX(e1)) / 2.0;
    assert (CentreY(e1) + CentreY(e2)) / 2.0 == (CentreY(e2) + CentreY(e1)) / 2.0;
  }

  /** The crop's horizontal centre lies within 0.75 pixel of the eye midpoint. */
  lemma CropCentredBetweenEyes(e1: Rect, e2: Rect, mode: RoundingMode)
    ensures var r := CropRegion(e1, e2, mode);
            -0.75 <= r.x as real + r.w as real / 2.0 - (CentreX(e1) + CentreX(e2)) / 2.0 <= 0.75
  {
  }

  /** Eyes at (0, 0) and (40, 0), 10 pixels square: a 64-pixel crop at (-7, -3), in either rounding mode. */
  lemma CropRegionExample(mode: RoundingMode)
    ensures CropRegion(Rect(0, 0, 10, 10), Rect(40, 0, 10, 10), mode) == Region(-7, -3, 64, 64)
  {
    assert EyeDistance(Rect(0, 0, 10, 10), Rect(40, 0, 10, 10)) == 40.0;
    assert Round(64.0, mode) == 64;
    assert Round(-7.0, mode) == -7;
    assert Round(-3.0, mode) == -3;
  }

  /** Two detections of the same eye give an empty crop, which is never shown. */
  lemma SameEyeGivesEmptyCrop(e: Rect, mode: RoundingMode)
    ensures CropRegion(e, e, mode).w == 0 && !ShowCrop(CropRegion(e, e, mode).h, CropRegion(e, e, mode).w)
  {
    assert Round(0.0, mode) == 0;
  }

  /** The crop is shown only when it has rows and columns. */
  predicate ShowCrop(height: int, width: int) {
    height > 0 && width > 0
  }

  /** A grey value 0 .. 255 scaled to [-1, 127/128]: value / 128 - 1. */
  function Normalise(p: int): (v: real)
    requires 0 <= p <= 255
    ensures -1.0 <= v <= 127.0 / 128.0
    ensures v < 1.0
  {
    p as real / 128.0 - 1.0
  }

  /**
   * One camera frame: whether a face with two eyes was found, whether the
   * crop cut out of the face image has no rows or no columns (numpy's slicing
   * of the face image is not modelled, so this is part of the frame), and the
   * key pressed.
   */
  datatype Frame = Frame(eyesFound: bool, cropEmpty: bool, key: char)

  /** The script's state: the capture flag, the number of sample lines written and whether the loop has ended. */
  datatype Capture = Capture(addFaceToFile: bool, written: nat, quit: bool)

  /** At start the flag is down and nothing is written. */
  function Start(): (c: Capture)
    ensures !c.addFaceToFile && c.written == 0 && !c.quit
  {
    Capture(false, 0, false)
  }

  /** With eyes found and the flag up, an empty crop reaches the resize, which raises and ends the script. */
  predicate ResizeFails(c: Capture, f: Frame) {
    f.eyesFound && c.addFaceToFile && f.cropEmpty
  }

  /**
   * One pass of the frame loop: with eyes found and the flag up, a non-empty
   * crop is written as a line and the flag cleared, while an empty one makes
   * the resize raise, ending the script with nothing written; then 'q' ends
   * the loop before 'a' is looked at, and 'a' raises the flag for a later frame.
   */
  function FrameStep(c: Capture, f: Frame): (r: Capture)
    requires !c.quit
    ensures r.written == c.written + (if f.eyesFound && c.addFaceToFile && !f.cropEmpty then 1 else 0)
    ensures r.quit <==> f.key == 'q' || ResizeFails(c, f)
    ensures r.addFaceToFile <==> (f.key == 'a' && !ResizeFails(c, f)) || (c.addFaceToFile && (!f.eyesFound || f.cropEmpty))
  {
    if ResizeFails(c, f) then c.(quit := true)
    else
      var wrote := f.eyesFound && c.addFaceToFile;
      var c1 := if wrote then c.(written := c.written + 1, addFaceToFile := false) else c;
      if f.key == 'q' then c1.(quit := true)
      else if f.key == 'a' then c1.(addFaceToFile := true)
      else c1
  }

  /** The frame loop over a sequence of frames, stopping at 'q'. */
  function Run(c: Capture, frames: seq<Frame>): (r: Capture)
    ensures c.quit ==> r == c
    ensures r.written >= c.written
    ensures !c.quit && !r.quit ==> forall i :: 0 <= i < |frames| ==> frames[i].key != 'q'
    decreases |frames|
  {
    if c.quit || |frames| == 0 then c else Run(FrameStep(c, frames[0]), frames[1..])
  }

  /** The 'a' presses among the frames the loop processes before it stops. */
  function Presses(c: Capture, frames: seq<Frame>): nat
    decreases |frames|
  {
    if c.quit || |frames| == 0 then 0
    else (if frames[0].key == 'a' then 1 else 0) + Presses(FrameStep(c, frames[0]), frames[1..])
  }

  /**
   * Every written line uses up one earlier 'a' press: lines written so far plus
   * a raised flag never exceed the presses, so a run writes at most one line
   * per press.
   */
  lemma {:induction false} WritesBoundedByPresses(c: Capture, frames: seq<Frame>)
    ensures var r := Run(c, frames);
            r.written + (if r.addFaceToFile then 1 else 0) <= c.written + (if c.addFaceToFile then 1 else 0) + Presses(c, frames)
    decreases |frames|
  {
    if !c.quit && |frames| > 0 {
      WritesBoundedByPresses(FrameStep(c, frames[0]), frames[1..]);
    }
  }

  /** From the start, the number of lines written is at most the number of 'a' presses. */
  lemma WritesAtMostPresses(frames: seq<Frame>)
    ensures Run(Start(), frames).written <= Presses(Start(), frames)
  {
    WritesBoundedByPresses(Start(), frames);
  }

  /** Frames after a 'q' are never looked at. */
  lemma {:induction false} QuitIgnoresLaterFrames(c: Capture, before: seq<Frame>, q: Frame, after: seq<Frame>)
    requires q.key == 'q'
    ensures Run(c, before + [q] + after) == Run(c, before + [q])
    decreases |before|
  {
    if c.quit {
    } else if |before| == 0 {
      assert before + [q] + after == [q] + after;
      assert before + [q] == [q];
      assert ([q] + after)[1..] == after;
    } else {
      assert (before + [q] + after)[1..] == before[1..] + [q] + after;
      assert (before + [q])[1..] == before[1..] + [q];
      QuitIgnoresLaterFrames(FrameStep(c, before[0]), before[1..], q, after);
    }
  }

  /** A frame whose empty crop reaches the resize ends the run there: later frames write nothing. */
  lemma EmptyCropEndsRun(c: Capture, f: Frame, later: seq<Frame>)
    requires !c.quit && ResizeFails(c, f)
    ensures Run(c, [f] + later).quit
    ensures Run(c, [f] + later).written == c.written
  {
    assert ([f] + later)[1..] == later;
  }
}

=== FILE: face_data_input.dfy ===
/**
 * Face data input (face example): reads samples from comma-separated text,
 * one sample per line, every value an integer, and files them with a fixed
 * label into the training or the test list.
 */
module FaceData {
  import opened Wrappers
  import Text
  import DataInput

  datatype SampleSet = Training | Test

  /** The value tokens of a line: its parts between commas, empty parts kept. */
  function Tokens(line: string): (t: seq<string>)
    ensures |t| >= 1
  {
    Text.Split(line, ',')
  }

  predicate Parses(token: string) {
    Text.ToInt(token).Some?
  }

  /**
   * The token loop of parseImgSampleLine from token i on: a token that converts
   * is appended; one that does not ends the parse with false, unless it is the
   * last token (a trailing comma), which is ignored.
   */
  function ParseTokens(tokens: seq<string>, i: nat, values: seq<real>): (r: (bool, seq<real>))
    requires i <= |tokens|
    decreases |tokens| - i
    ensures |values| <= |r.1| && r.1[..|values|] == values
    ensures r.0 <==> forall k :: i <= k < |tokens| - 1 ==> Parses(tokens[k])
    ensures r.0 ==> |r.1| == |values| + (|tokens| - i) - (if i < |tokens| && !Parses(tokens[|tokens| - 1]) then 1 else 0)
    ensures r.0 ==> forall k :: i <= k < |tokens| - 1 ==> r.1[|values| + (k - i)] == Text.ToInt(tokens[k]).value as real
    ensures r.0 && i < |tokens| && Parses(tokens[|tokens| - 1]) ==>
              r.1[|r.1| - 1] == Text.ToInt(tokens[|tokens| - 1]).value as real
  {
    if i == |tokens| then (true, values)
    else match Text.ToInt(tokens[i])
      case None =>
        if i + 1 == |tokens| then ParseTokens(tokens, i + 1, values) else (false, values)
      case Some(v) =>
        var r := ParseTokens(tokens, i + 1, values + [v as real]);
        assert r.1[..|values|] == (values + [v as real])[..|values|];
        r
  }

  /**
   * parseImgSampleLine: true exactly when every token but the last converts;
   * then every converted token's value has been appended to `values`, in order.
   */
  function ParseImgSampleLine(line: string, values: seq<real>): (r: (bool, seq<real>))
    ensures |values| <= |r.1| && r.1[..|values|] == values
    ensures var t := Tokens(line);
            && (r.0 <==> forall k :: 0 <= k < |t| - 1 ==> Parses(t[k]))
            && (r.0 ==> |r.1| == |values| + |t| - (if Parses(t[|t| - 1]) then 0 else 1))
            && (r.0 ==> forall k :: 0 <= k < |t| - 1 ==> r.1[|values| + k] == Text.ToInt(t[k]).value as real)
            && (r.0 && Parses(t[|t| - 1]) ==> r.1[|r.1| - 1] == Text.ToInt(t[|t| - 1]).value as real)
  {
    ParseTokens(Tokens(line), 0, values)
  }

  /**
   * A line laid out as the face capture script writes one: every value followed
   * by ", " (here with integer values).
   */
  function SampleLine(vs: seq<int>): string {
    if |vs| == 0 then "" else Text.Decimal(vs[0]) + (", " + SampleLine(vs[1..]))
  }

  /** The tokens of `p + SampleLine(vs)` for a comma-free lead-in `p`. */
  function LineTokens(p: string, vs: seq<int>): seq<string>
    decreases |vs|
  {
    if |vs| == 0 then [p] else [p + Text.Decimal(vs[0])] + LineTokens(" ", vs[1..])
  }

  lemma DecimalHasNoComma(v: int)
    ensures forall j :: 0 <= j < |Text.Decimal(v)| ==> Text.Decimal(v)[j] != ','
  {
    var ds := Text.NatDigits(if v < 0 then -v else v);
    assert forall j :: 0 <= j < |ds| ==> Text.IsDigit(ds[j]);
  }

  /** One step of writing a line: the first value's token, a comma, then the rest after one blank. */
  lemma SampleLineStep(p: string, vs: seq<int>)
    requires |vs| > 0
    ensures p + SampleLine(vs) == (p + Text.Decimal(vs[0])) + (", " + SampleLine(vs[1..]))
    ensures LineTokens(p, vs) == [p + Text.Decimal(vs[0])] + LineTokens(" ", vs[1..])
  {
    Assoc(p, Text.Decimal(vs[0]), ", " + SampleLine(vs[1..]));
  }

  lemma Assoc(a: string, b: string, c: string)
    ensures a + (b + c) == (a + b) + c
  {
  }

  /** A comma-free lead-in followed by a value's decimal form is comma-free. */
  lemma LeadInNoComma(p: string, v: int)
    requires forall j :: 0 <= j < |p| ==> p[j] != ','
    ensures forall j :: 0 <= j < |p + Text.Decimal(v)| ==> (p + Text.Decimal(v))[j] != ','
  {
    DecimalHasNoComma(v);
    var w := p + Text.Decimal(v);
    forall j | 0 <= j < |w|
      ensures w[j] != ','
    {
      if j >= |p| {
        assert w[j] == Text.Decimal(v)[j - |p|];
      }
    }
  }

  lemma {:induction false} SplitSampleLine(p: string, vs: seq<int>)
    requires forall j :: 0 <= j < |p| ==> p[j] != ','
    ensures Text.Split(p + SampleLine(vs), ',') == LineTokens(p, vs)
    decreases |vs|
  {
    if |vs| == 0 {
      Text.SplitPlain(p, [], ',');
      assert p + SampleLine(vs) == p + [];
    } else {
      SplitSampleLine(" ", vs[1..]);
      SplitSampleLineStep(p, vs);
    }
  }

  /** The inductive step: the first token is the lead-in and first value, the rest is split after the comma. */
  lemma SplitSampleLineStep(p: string, vs: seq<int>)
    requires forall j :: 0 <= j < |p| ==> p[j] != ','
    requires |vs| > 0
    requires Text.Split(" " + SampleLine(vs[1..]), ',') == LineTokens(" ", vs[1..])
    ensures Text.Split(p + SampleLine(vs), ',') == LineTokens(p, vs)
  {
    SampleLineStep(p, vs);
    SplitFirstToken(p, vs);
  }

  /** Splitting the first token, its comma and the rest of a written line. */
  lemma SplitFirstToken(p: string, vs: seq<int>)
    requires forall j :: 0 <= j < |p| ==> p[j] != ','
    requires |vs| > 0
    requires Text.Split(" " + SampleLine(vs[1..]), ',') == LineTokens(" ", vs[1..])
    ensures Text.Split((p + Text.Decimal(vs[0])) + (", " + SampleLine(vs[1..])), ',')
         == [p + Text.Decimal(vs[0])] + LineTokens(" ", vs[1..])
  {
    var rest := ", " + SampleLine(vs[1..]);
    LeadInNoComma(p, vs[0]);
    assert rest[1..] == " " + SampleLine(vs[1..]);
    Text.SplitAfterWord(p + Text.Decimal(vs[0]), rest, ',', LineTokens(" ", vs[1..]));
  }

  /** The shape of LineTokens: one token per value, then the lead-in alone. */
  lemma {:induction false} LineTokensShape(p: string, vs: seq<int>)
    ensures |LineTokens(p, vs)| == |vs| + 1
    ensures LineTokens(p, vs)[|vs|] == (if |vs| == 0 then p else " ")
    ensures |vs| > 0 ==> LineTokens(p, vs)[0] == p + Text.Decimal(vs[0])
    ensures forall k :: 1 <= k < |vs| ==> LineTokens(p, vs)[k] == " " + Text.Decimal(vs[k])
    decreases |vs|
  {
    if |vs| > 0 {
      LineTokensShape(" ", vs[1..]);
      var t := LineTokens(p, vs);
      var u := LineTokens(" ", vs[1..]);
      assert t == [p + Text.Decimal(vs[0])] + u;
      forall k | 1 <= k < |vs|
        ensures t[k] == " " + Text.Decimal(vs[k])
      {
        assert t[k] == u[k - 1] && vs[1..][k - 1] == vs[k];
      }
    }
  }

  lemma ToIntSpaced(v: int)
    requires Text.IntMin <= v <= Text.IntMax
    ensures Text.ToInt(" " + Text.Decimal(v)) == Some(v)
  {
    Text.ToIntSkipsLeadingBlank(Text.Decimal(v));
    Text.ToIntDecimal(v);
  }

  /** Tokens that all convert except a last, unconvertible one parse to their values in order. */
  lemma ParseAllButLast(t: seq<string>, vs: seq<int>, values: seq<real>)
    requires |t| == |vs| + 1
    requires forall k :: 0 <= k < |vs| ==> Text.ToInt(t[k]) == Some(vs[k])
    requires !Parses(t[|vs|])
    ensures ParseTokens(t, 0, values) == (true, values + seq(|vs|, k requires 0 <= k < |vs| => vs[k] as real))
  {
    var r := ParseTokens(t, 0, values);
    assert forall k :: 0 <= k < |t| - 1 ==> Parses(t[k]);
    assert r.0;
    var expected := values + seq(|vs|, k requires 0 <= k < |vs| => vs[k] as real);
    assert |r.1| == |expected|;
    forall k | 0 <= k < |r.1|
      ensures r.1[k] == expected[k]
    {
      if k < |values| {
        assert r.1[k] == r.1[..|values|][k];
      } else {
        var j := k - |values|;
        assert 0 <= j < |t| - 1;
        assert r.1[|values| + (j - 0)] == Text.ToInt(t[j]).value as real;
      }
    }
    assert r.1 == expected;
  }

  /** The tokens of a written line: each value's decimal form (the first bare, the others after a blank), then a lone blank. */
  lemma SampleLineTokenValues(vs: seq<int>)
    requires forall k :: 0 <= k < |vs| ==> Text.IntMin <= vs[k] <= Text.IntMax
    ensures |Tokens(SampleLine(vs))| == |vs| + 1
    ensures forall k :: 0 <= k < |vs| ==> Text.ToInt(Tokens(SampleLine(vs))[k]) == Some(vs[k])
    ensures !Parses(Tokens(SampleLine(vs))[|vs|])
  {
    SplitSampleLine("", vs);
    assert "" + SampleLine(vs) == SampleLine(vs);
    LineTokensShape("", vs);
    var t := Tokens(SampleLine(vs));
    forall k | 0 <= k < |vs|
      ensures Text.ToInt(t[k]) == Some(vs[k])
    {
      if k == 0 {
        assert t[0] == "" + Text.Decimal(vs[0]);
        assert "" + Text.Decimal(vs[0]) == Text.Decimal(vs[0]);
        Text.ToIntDecimal(vs[0]);
      } else {
        ToIntSpaced(vs[k]);
      }
    }
    Text.ToIntRejectsEmpty();
    assert t[|vs|] == "" || t[|vs|] == " ";
  }

  /**
   * Reading back a written line: the trailing ", " leaves a last token of one
   * blank, which the parser ignores, and every value comes back in order.
   */
  lemma SampleLineRoundTrip(vs: seq<int>, values: seq<real>)
    requires forall k :: 0 <= k < |vs| ==> Text.IntMin <= vs[k] <= Text.IntMax
    ensures ParseImgSampleLine(SampleLine(vs), values) == (true, values + seq(|vs|, k requires 0 <= k < |vs| => vs[k] as real))
  {
    SampleLineTokenValues(vs);
    ParseAllButLast(Tokens(SampleLine(vs)), vs, values);
  }

  /** The parse of one line into a fresh value vector. */
  function ParseLine(line: string): (bool, seq<real>) {
    ParseImgSampleLine(line, [])
  }

  function Target(d: DataInput.DataInput<int>, which: SampleSet): seq<DataInput.DataElement<int>> {
    if which == Training then d.training else d.test
  }

  function Other(d: DataInput.DataInput<int>, which: SampleSet): seq<DataInput.DataElement<int>> {
    if which == Training then d.test else d.training
  }

  /** Files one element into the chosen list. */
  function File(d: DataInput.DataInput<int>, which: SampleSet, e: DataInput.DataElement<int>): (r: DataInput.DataInput<int>)
    ensures Target(r, which) == Target(d, which) + [e]
    ensures Other(r, which) == Other(d, which)
  {
    var r := if which == Training then DataInput.AddTrainingSample(d, e.input, e.output)
             else DataInput.AddTestSample(d, e.input, e.output);
    assert Target(r, which) == Target(d, which) + [e];
    r
  }

  /** The number of lines addToSet reads at most: maxNbrOfSamples, but at least one since the cap is checked after filing. */
  function Cap(nLines: nat, maxNbrOfSamples: nat): nat {
    var m := if maxNbrOfSamples == 0 then 1 else maxNbrOfSamples;
    if nLines <= m then nLines else m
  }

  /**
   * The read loop of addToSet, for a line parser `parse`: each line is parsed
   * and its sample filed with the label until the cap is reached; the first
   * line that does not parse ends the read with false, keeping the samples
   * filed before it.
   */
  method ReadSamples(d: DataInput.DataInput<int>, which: SampleSet, lines: seq<string>, lable: int, maxNbrOfSamples: nat,
                     parse: string -> (bool, seq<real>))
    returns (ok: bool, r: DataInput.DataInput<int>)
    ensures Other(r, which) == Other(d, which)
    ensures var n := |Target(r, which)| - |Target(d, which)|;
            && |Target(d, which)| <= |Target(r, which)| && Target(r, which)[..|Target(d, which)|] == Target(d, which)
            && n <= Cap(|lines|, maxNbrOfSamples)
            && (forall k :: 0 <= k < n ==>
                  (parse(lines[k]).0 && Target(r, which)[|Target(d, which)| + k] == DataInput.DataElement(parse(lines[k]).1, lable)))
            && (ok <==> n == Cap(|lines|, maxNbrOfSamples))
            && (!ok ==> !parse(lines[n]).0)
  {
    var sampleCount := 0;
    r := d;
    while sampleCount < |lines|
      invariant 0 <= sampleCount <= Cap(|lines|, maxNbrOfSamples)
      invariant sampleCount == 0 || sampleCount < maxNbrOfSamples
      invariant Other(r, which) == Other(d, which)
      invariant |Target(r, which)| == |Target(d, which)| + sampleCount
      invariant Target(r, which)[..|Target(d, which)|] == Target(d, which)
      invariant forall k :: 0 <= k < sampleCount ==>
                  (parse(lines[k]).0 && Target(r, which)[|Target(d, which)| + k] == DataInput.DataElement(parse(lines[k]).1, lable))
    {
      var parsed := parse(lines[sampleCount]);
      if !parsed.0 {
        return false, r;
      }
      r := File(r, which, DataInput.DataElement(parsed.1, lable));
      sampleCount := sampleCount + 1;
      if sampleCount >= maxNbrOfSamples {
        break;
      }
    }
    ok := true;
  }

  /**
   * The outcome of reading the lines of an opened file into one list: earlier
   * samples kept, the k-th new sample is the k-th line's values with the label,
   * at most max(cap, 1) are filed, `ok` exactly when the cap or the end of the
   * file was reached, and otherwise the line after the last one filed does not
   * parse.
   */
  ghost predicate ReadFrom(d: DataInput.DataInput<int>, r: DataInput.DataInput<int>, which: SampleSet,
                           lines: seq<string>, lable: int, maxNbrOfSamples: nat, ok: bool) {
    var n := |Target(r, which)| - |Target(d, which)|;
    && |Target(d, which)| <= |Target(r, which)| && Target(r, which)[..|Target(d, which)|] == Target(d, which)
    && n <= Cap(|lines|, maxNbrOfSamples)
    && (forall k :: 0 <= k < n ==>
          (ParseLine(lines[k]).0 && Target(r, which)[|Target(d, which)| + k] == DataInput.DataElement(ParseLine(lines[k]).1, lable)))
    && (ok <==> n == Cap(|lines|, maxNbrOfSamples))
    && (!ok ==> n < |lines| && !ParseLine(lines[n]).0)
  }

  /**
   * addToSet: false when the file cannot be opened (modelled as None);
   * otherwise the read loop over the file's lines with parseImgSampleLine.
   */
  method AddToSet(d: DataInput.DataInput<int>, which: SampleSet, file: Option<seq<string>>, lable: int, maxNbrOfSamples: nat)
    returns (ok: bool, r: DataInput.DataInput<int>)
    ensures file.None? ==> !ok && r == d
    ensures Other(r, which) == Other(d, which)
    ensures file.Some? ==> ReadFrom(d, r, which, file.value, lable, maxNbrOfSamples, ok)
  {
    if file.None? {
      return false, d;
    }
    ok, r := ReadSamples(d, which, file.value, lable, maxNbrOfSamples, ParseLine);
  }

  /** addToTraining: addToSet on the training list; the test list is untouched. */
  method AddToTraining(d: DataInput.DataInput<int>, file: Option<seq<string>>, lable: int, maxNbrOfSamples: nat)
    returns (ok: bool, r: DataInput.DataInput<int>)
    ensures file.None? ==> !ok && r == d
    ensures r.test == d.test
    ensures file.Some? ==> ReadFrom(d, r, Training, file.value, lable, maxNbrOfSamples, ok)
  {
    ok, r := AddToSet(d, Training, file, lable, maxNbrOfSamples);
  }

  /** addToTest: addToSet on the test list; the training list is untouched. */
  method AddToTest(d: DataInput.DataInput<int>, file: Option<seq<string>>, lable: int, maxNbrOfSamples: nat)
    returns (ok: bool, r: DataInput.DataInput<int>)
    ensures file.None? ==> !ok && r == d
    ensures r.training == d.training
    ensures file.Some? ==> ReadFrom(d, r, Test, file.value, lable, maxNbrOfSamples, ok)
  {
    ok, r := AddToSet(d, Test, file, lable, maxNbrOfSamples);
  }
}

=== FILE: face_widget.dfy ===
/**
 * The face example's viewer logic, without the Qt user interface: the
 * one-hot target for a face/non-face label, stepping through the test samples
 * with wrap-around, picking a failed sample from the list, the value range of
 * the last entries of a plot series, the plot's y-axis range and the
 * cost-function choice.
 */
module FaceWidget {
  import opened Wrappers
  import opened Matrices
  import MnistData
  import FaceCapture

  /** The label as a 2 x 1 target vector: 1 at the label's row, 0 at the other. */
  function LableToOutputVector(lable: MnistData.Byte): (r: Mat<real>)
    requires lable < 2
    ensures r.Valid() && r.rows == 2 && r.cols == 1
    ensures forall k :: 0 <= k < 2 ==> r.At(k, 0) == (if k == lable then 1.0 else 0.0)
  {
    Mat(2, 1, [[if lable == 0 then 1.0 else 0.0], [if lable == 1 then 1.0 else 0.0]])
  }

  /**
   * The class a two-row label vector is shown as: 0 ("No Glasses") when row 0
   * is strictly larger, otherwise 1 ("Glasses"), so a tie shows class 1.
   */
  function Classify(out: Mat<real>): (k: nat)
    requires out.Valid() && out.rows == 2 && out.cols == 1
    ensures k < 2
    ensures out.At(k, 0) >= out.At(1 - k, 0)
    ensures k == 0 <==> out.At(0, 0) > out.At(1, 0)
  {
    if out.At(0, 0) > out.At(1, 0) then 0 else 1
  }

  /** The target vector of a label is classified as that label. */
  lemma OutputVectorClassifiesAsLable(lable: MnistData.Byte)
    requires lable < 2
    ensures Classify(LableToOutputVector(lable)) == lable
  {
  }

  /** size_t arithmetic: 64-bit unsigned, wrapping. */
  const SizeMod: int := 0x1_0000_0000_0000_0000

  /** A number below the modulus is its own residue, and so is that number plus the modulus; the modulus leaves 0. */
  lemma ModOfSmall(a: int, m: int)
    ensures 0 <= a < m ==> a % m == a && (a + m) % m == a
    ensures m > 0 ==> m % m == 0
  {
  }

  /** The sample index after "former sample": one back, from 0 to the last. */
  function Former(idx: nat, size: nat): (r: nat)
    requires idx < SizeMod && size < SizeMod
    ensures r < SizeMod
    ensures idx < size ==> r < size
    ensures size == 0 && idx == 0 ==> r == SizeMod - 1
    ensures idx < size ==> r == (idx + size - 1) % size
  {
    ModOfSmall(size - 1, size);
    ModOfSmall(size - 1, SizeMod);
    if idx == 0 then (size - 1) % SizeMod
    else
      ModOfSmall(idx - 1, size);
      idx - 1
  }

  /** The sample index after "next sample": one on, from the last to 0. */
  function Next(idx: nat, size: nat): (r: nat)
    requires idx < SizeMod && size < SizeMod
    ensures r < SizeMod
    ensures idx < size ==> r < size
    ensures idx < size ==> r == (idx + 1) % size
  {
    ModOfSmall(idx + 1, size);
    if idx == (size - 1) % SizeMod then 0
    else
      (idx + 1) % SizeMod
  }

  /** Within the samples, "former" and "next" undo each other. */
  lemma FormerNextInverse(idx: nat, size: nat)
    requires idx < size < SizeMod
    ensures Next(Former(idx, size), size) == idx
    ensures Former(Next(idx, size), size) == idx
  {
  }

  /** Selecting row `row` of the failed-sample list shows that sample, if the row exists. */
  function SelectFailed(row: int, failed: seq<nat>): (r: Option<nat>)
    ensures r.Some? <==> 0 <= row < |failed|
    ensures r.Some? ==> r.value == failed[row]
  {
    if 0 <= row < |failed| then Some(failed[row]) else None
  }

  /** The largest and smallest positive normal double (std::numeric_limits<double>::max() and min()). */
  const DblMax: real := 179769313486231570814527423731704356798070567525844996598917476803157260780028538760589558632766878171540458953514382464234321326889464182768467546703537516986049910576551282076245490090389328944075868508455133942304583236903222948165808559332123348274797826204144723168738177180919299881250404026184124858368.0
  const DblMin: real := 1.0 / DblMinInverse
  const DblMinInverse: real := 44942328371557897693232629769725618340449424473557664318357520289433168951375240783177119330601884005280028469967848339414697442203604155623211857659868531094441973356216371319075554900311523529863270738021251442209537670585615720368478277635206809290837627671146574559986811484619929076208839082406056034304.0

  /** The entries the scan looks at: the last `n`, or all when there are fewer (the index loop skips negative indices). */
  function Window(ys: seq<real>, n: nat): (w: seq<real>)
    ensures |w| == (if n < |ys| then n else |ys|)
    ensures forall k :: 0 <= k < |w| ==> w[k] == ys[|ys| - |w| + k]
  {
    if n < |ys| then ys[|ys| - n..] else ys
  }

  /**
   * The running minimum and maximum over `vals`, starting from `lo` and `hi`;
   * each is updated on its own test, as in the scan loop.
   */
  function Extremes(vals: seq<real>, lo: real, hi: real): (r: (real, real))
    ensures r.0 <= lo && (r.0 == lo || exists k :: 0 <= k < |vals| && vals[k] == r.0)
    ensures r.1 >= hi && (r.1 == hi || exists k :: 0 <= k < |vals| && vals[k] == r.1)
    ensures forall k :: 0 <= k < |vals| ==> r.0 <= vals[k] <= r.1
    decreases |vals|
  {
    if |vals| == 0 then (lo, hi)
    else
      var r := Extremes(vals[1..], if vals[0] < lo then vals[0] else lo, if vals[0] > hi then vals[0] else hi);
      assert forall k :: 1 <= k < |vals| ==> vals[k] == vals[1..][k - 1];
      r
  }

  /** The y-range of the last `nbrEntries` points of a series as written: the maximum starts at the smallest positive double. */
  function MinMaxYAsWritten(ys: seq<real>, nbrEntries: nat): (r: (real, real))
    ensures forall k :: 0 <= k < |Window(ys, nbrEntries)| ==> r.0 <= Window(ys, nbrEntries)[k] <= r.1
    ensures |Window(ys, nbrEntries)| == 0 ==> r == (DblMax, DblMin)
  {
    Extremes(Window(ys, nbrEntries), DblMax, DblMin)
  }

  /** A start above every value is never replaced. */
  lemma MaxKeepsStart(vals: seq<real>, lo: real, hi: real)
    requires forall k :: 0 <= k < |vals| ==> vals[k] < hi
    ensures Extremes(vals, lo, hi).1 == hi
  {
  }

  /**
   * When the last points are all at most 0 (a loss or success rate stuck at 0),
   * the reported maximum is the smallest positive double, which is none of them.
   */
  lemma MinMaxYAsWrittenMissesMax(ys: seq<real>, nbrEntries: nat)
    requires forall k :: 0 <= k < |ys| ==> ys[k] <= 0.0
    ensures MinMaxYAsWritten(ys, nbrEntries).1 == DblMin
    ensures forall k :: 0 <= k < |Window(ys, nbrEntries)| ==> Window(ys, nbrEntries)[k] < MinMaxYAsWritten(ys, nbrEntries).1
  {
    var w := Window(ys, nbrEntries);
    assert DblMin > 0.0;
    forall k | 0 <= k < |w|
      ensures w[k] < DblMin
    {
      assert w[k] == ys[|ys| - |w| + k];
    }
    MaxKeepsStart(w, DblMax, DblMin);
  }

  /** Four points at 0: the reported maximum is not 0. */
  lemma MinMaxYAsWrittenZeroExample()
    ensures MinMaxYAsWritten([0.0, 0.0, 0.0, 0.0], 4).1 != 0.0
  {
    MinMaxYAsWrittenMissesMax([0.0, 0.0, 0.0, 0.0], 4);
  }

  /** Every value a double can hold. */
  predicate InDoubleRange(ys: seq<real>) {
    forall k :: 0 <= k < |ys| ==> -DblMax <= ys[k] <= DblMax
  }

  /** The y-range of the last `nbrEntries` points, with the maximum starting at the lowest double. */
  function MinMaxY(ys: seq<real>, nbrEntries: nat): (r: (real, real))
    ensures forall k :: 0 <= k < |Window(ys, nbrEntries)| ==> r.0 <= Window(ys, nbrEntries)[k] <= r.1
    ensures |Window(ys, nbrEntries)| == 0 ==> r == (DblMax, -DblMax)
  {
    Extremes(Window(ys, nbrEntries), DblMax, -DblMax)
  }

  /** Over a non-empty window of doubles, both ends of the range are points of the window. */
  lemma MinMaxYAttained(ys: seq<real>, nbrEntries: nat)
    requires InDoubleRange(ys) && nbrEntries > 0 && |ys| > 0
    ensures var w := Window(ys, nbrEntries);
            var r := MinMaxY(ys, nbrEntries);
            (exists k :: 0 <= k < |w| && w[k] == r.0) && (exists k :: 0 <= k < |w| && w[k] == r.1)
  {
    var w := Window(ys, nbrEntries);
    var r := MinMaxY(ys, nbrEntries);
    assert w[0] == ys[|ys| - |w|];
    if r.0 == DblMax {
      assert r.0 <= w[0] <= DblMax;
    }
    if r.1 == -DblMax {
      assert r.1 >= w[0] >= -DblMax;
    }
  }

  /** The y-axis range: 5 % below the lower minimum but not below 0, 20 % above the higher maximum but not above 100. */
  function AxisRange(minClass: real, maxClass: real, minL2: real, maxL2: real): (r: (real, real))
    ensures r.0 >= 0.0 && r.1 <= 100.0
    ensures r.0 > 0.0 ==> r.0 == 0.95 * minClass || r.0 == 0.95 * minL2
    ensures r.1 < 100.0 ==> r.1 == 1.2 * maxClass || r.1 == 1.2 * maxL2
    ensures r.0 >= 0.95 * minClass || r.0 >= 0.95 * minL2
    ensures r.0 > 0.0 ==> r.0 <= 0.95 * minClass && r.0 <= 0.95 * minL2
    ensures r.1 <= 1.2 * maxClass || r.1 <= 1.2 * maxL2
    ensures r.1 < 100.0 ==> r.1 >= 1.2 * maxClass && r.1 >= 1.2 * maxL2
  {
    var lo := if minClass < minL2 then minClass else minL2;
    var hi := if maxClass > maxL2 then maxClass else maxL2;
    (if lo * 0.95 > 0.0 then lo * 0.95 else 0.0, if hi * 1.2 < 100.0 then hi * 1.2 else 100.0)
  }

  /** For non-negative data (success rates and costs) the axis shows every extreme, unless capped at 100. */
  lemma AxisRangeCoversData(minClass: real, maxClass: real, minL2: real, maxL2: real)
    requires 0.0 <= minClass && 0.0 <= minL2 && 0.0 <= maxClass && 0.0 <= maxL2
    ensures var r := AxisRange(minClass, maxClass, minL2, maxL2);
            r.0 <= minClass && r.0 <= minL2 && (r.1 == 100.0 || (r.1 >= maxClass && r.1 >= maxL2))
  {
  }

  datatype CostFunction = Quadratic | CrossEntropy

  /** The cost function chosen in the combo box: the first entry is quadratic, any other cross-entropy. */
  function SelectedCostFunction(selectedIdx: int): (c: CostFunction)
    ensures c == Quadratic <==> selectedIdx == 0
  {
    if selectedIdx == 0 then Quadratic else CrossEntropy
  }

  /**
   * The displayed grey level of a normalised value: C's `round((v + 1) * 128)`,
   * which takes halves away from zero, converted to `uint8_t`. The conversion
   * of a value outside 0 .. 255 is undefined, modelled as none.
   */
  function DisplayValue(v: real): (r: Option<nat>)
    ensures var n := FaceCapture.Round((v + 1.0) * 128.0, FaceCapture.HalfAwayFromZero);
            r.Some? <==> 0 <= n <= 255
    ensures r.Some? ==> r.value < 256 && -0.5 <= r.value as real - (v + 1.0) * 128.0 <= 0.5
  {
    var n := FaceCapture.Round((v + 1.0) * 128.0, FaceCapture.HalfAwayFromZero);
    if 0 <= n <= 255 then Some(n) else None
  }

  /** Displaying a captured and normalised grey value gives back that grey value. */
  lemma DisplayInvertsNormalise(p: int)
    requires 0 <= p <= 255
    ensures DisplayValue(FaceCapture.Normalise(p)) == Some(p)
  {
    assert (FaceCapture.Normalise(p) + 1.0) * 128.0 == p as real;
    assert FaceCapture.Round(p as real, FaceCapture.HalfAwayFromZero) == p;
  }
}

=== FILE: genetic.dfy ===
/**
 * Genetic: uniform crossover of two networks. The child starts as a copy of
 * parent a; every weight and every bias is then taken from a or from b by a fair
 * coin. The coin is the draw oracle: draw(k) is the k-th value of the random
 * stream, true standing for 1 (take b) and false for 0 (take a). Draws are used
 * layer by layer, weights row by row before the biases, as in the library.
 */
module Genetic {
  import opened Wrappers
  import opened Matrices
  import Layers
  import Networks

  /** Number of draws one layer consumes: one per weight and one per bias. */
  function DrawsOf(l: Layers.Layer): nat {
    l.nNeurons * l.nInputs + l.nNeurons
  }

  /** Position in the random stream where layer i starts drawing. */
  function DrawOffset(ls: seq<Layers.Layer>, i: nat): nat
    requires i <= |ls|
  {
    if i == 0 then 0 else DrawOffset(ls, i - 1) + DrawsOf(ls[i - 1])
  }

  /** The crossed weight matrix: entry (m, n) from b when its draw is 1, else from a. */
  function CrossWeights(al: Layers.Layer, bl: Layers.Layer, pos: nat, draw: nat -> bool): (w: Mat<real>)
    requires al.Valid() && bl.Valid()
    requires bl.nNeurons == al.nNeurons && bl.nInputs == al.nInputs
    ensures w.Valid() && w.rows == al.nNeurons && w.cols == al.nInputs
    ensures forall m, n :: 0 <= m < w.rows && 0 <= n < w.cols ==>
              w.At(m, n) == (if draw(pos + m * al.nInputs + n) then bl.weights[m][n] else al.weights[m][n])
  {
    Mat(al.nNeurons, al.nInputs,
        seq(al.nNeurons, m requires 0 <= m < al.nNeurons =>
          seq(al.nInputs, n requires 0 <= n < al.nInputs =>
            if draw(pos + m * al.nInputs + n) then bl.weights[m][n] else al.weights[m][n])))
  }

  /** The crossed bias column: entry m from b when its draw is 1, else from a. */
  function CrossBiases(al: Layers.Layer, bl: Layers.Layer, pos: nat, draw: nat -> bool): (b: Mat<real>)
    requires al.Valid() && bl.Valid() && bl.nNeurons == al.nNeurons
    ensures b.Valid() && b.rows == al.nNeurons && b.cols == 1
    ensures forall m :: 0 <= m < b.rows ==>
              b.At(m, 0) == (if draw(pos + m) then bl.biases[m] else al.biases[m])
  {
    Column(seq(al.nNeurons, m requires 0 <= m < al.nNeurons =>
      if draw(pos + m) then bl.biases[m] else al.biases[m]))
  }

  /**
   * One child layer: a copy of a's layer that receives the crossed weight matrix
   * and then the crossed bias vector. CrossLayerUsesSetters shows that this is
   * what the two setters produce (both accept, the shapes being a's).
   */
  function CrossLayer(al: Layers.Layer, bl: Layers.Layer, pos: nat, draw: nat -> bool): (c: Layers.Layer)
    requires al.Valid() && bl.Valid()
    requires bl.nNeurons == al.nNeurons && bl.nInputs == al.nInputs
    ensures c.Valid() && c.nNeurons == al.nNeurons && c.nInputs == al.nInputs
    ensures forall m, n :: 0 <= m < al.nNeurons && 0 <= n < al.nInputs ==>
              c.weights[m][n] == (if draw(pos + m * al.nInputs + n) then bl.weights[m][n] else al.weights[m][n])
    ensures forall m :: 0 <= m < al.nNeurons ==>
              c.biases[m] == (if draw(pos + al.nNeurons * al.nInputs + m) then bl.biases[m] else al.biases[m])
    ensures c.z == al.z && c.activationOut == al.activationOut && c.activationIn == al.activationIn
    ensures c.error == al.error
  {
    var cw := CrossWeights(al, bl, pos, draw);
    var cb := CrossBiases(al, bl, pos + al.nNeurons * al.nInputs, draw);
    al.(weights := cw.cells, biases := seq(al.nNeurons, m requires 0 <= m < al.nNeurons => cb.At(m, 0)))
  }

  /** The child layer is what setWeights and then setBias make of a copy of a's layer. */
  lemma CrossLayerUsesSetters(al: Layers.Layer, bl: Layers.Layer, pos: nat, draw: nat -> bool)
    requires al.Valid() && bl.Valid()
    requires bl.nNeurons == al.nNeurons && bl.nInputs == al.nInputs
    ensures var w := Layers.SetWeightMatrix(al, CrossWeights(al, bl, pos, draw));
            var b := Layers.SetBiasMatrix(w.layer, CrossBiases(al, bl, pos + al.nNeurons * al.nInputs, draw));
            w.ok && b.ok && b.layer == CrossLayer(al, bl, pos, draw)
  {
  }

  /**
   * The structure check of the library: a's structure must equal the first
   * |a| entries of b's structure (a three-iterator std::equal, which reads b
   * only as far as a is long; a shorter b would be read past its end).
   */
  predicate StructureMatches(a: Networks.Network, b: Networks.Network)
    requires |a.structure| <= |b.structure|
  {
    a.structure == b.structure[..|a.structure|]
  }

  /** Layer i of b has the shape of layer i of a. */
  ghost predicate LayersMatch(a: Networks.Network, b: Networks.Network)
    requires Networks.Valid(a) && Networks.Valid(b) && |a.structure| <= |b.structure|
  {
    forall i :: 0 <= i < |a.layers| ==>
      b.layers[i].nNeurons == a.layers[i].nNeurons && b.layers[i].nInputs == a.layers[i].nInputs
  }

  lemma MatchingStructureMatchesLayers(a: Networks.Network, b: Networks.Network)
    requires Networks.Valid(a) && Networks.Valid(b) && |a.structure| <= |b.structure|
    requires StructureMatches(a, b)
    ensures LayersMatch(a, b)
  {
    forall i | 0 <= i < |a.layers|
      ensures b.layers[i].nNeurons == a.layers[i].nNeurons && b.layers[i].nInputs == a.layers[i].nInputs
    {
      InputCount(a, i);
      InputCount(b, i);
      assert a.structure[i] == b.structure[..|a.structure|][i];
      if i > 0 {
        assert a.structure[i - 1] == b.structure[..|a.structure|][i - 1];
      }
    }
  }

  lemma InputCount(net: Networks.Network, i: nat)
    requires Networks.Valid(net) && i < |net.layers|
    ensures net.layers[i].nNeurons == net.structure[i]
    ensures net.layers[i].nInputs == Networks.InputsOf(net.structure, i)
  {
    assert Networks.Wired(net.structure, net.layers);
  }

  /**
   * Genetic::crossover: null when the structures do not match; otherwise a child
   * with a's structure whose every weight and bias comes from a or b at the same
   * position, chosen by the draw stream.
   */
  function Crossover(a: Networks.Network, b: Networks.Network, draw: nat -> bool): (r: Option<Networks.Network>)
    requires Networks.Valid(a) && Networks.Valid(b)
    requires |a.structure| <= |b.structure|
    ensures r.Some? <==> StructureMatches(a, b)
    ensures r.Some? ==> LayersMatch(a, b)
    ensures r.Some? ==> Networks.Valid(r.value) && r.value.structure == a.structure
    ensures r.Some? ==> |r.value.layers| == |a.layers| && r.value.output == a.output
    ensures r.Some? ==> forall i :: 0 <= i < |a.layers| ==>
              r.value.layers[i] == CrossLayer(a.layers[i], b.layers[i], DrawOffset(a.layers, i), draw)
  {
    if !StructureMatches(a, b) then None
    else
      MatchingStructureMatchesLayers(a, b);
      var ls := seq(|a.layers|, i requires 0 <= i < |a.layers| =>
        CrossLayer(a.layers[i], b.layers[i], DrawOffset(a.layers, i), draw));
      assert Networks.Wired(a.structure, ls);
      Some(a.(layers := ls))
  }

  /** Every child weight and bias equals a's or b's at the same position, and the shapes are a's. */
  lemma ChildGenesComeFromParents(a: Networks.Network, b: Networks.Network, draw: nat -> bool)
    requires Networks.Valid(a) && Networks.Valid(b)
    requires |a.structure| <= |b.structure| && StructureMatches(a, b)
    ensures var c := Crossover(a, b, draw).value;
      && c.structure == a.structure
      && forall i :: 0 <= i < |a.layers| ==>
           && c.layers[i].nNeurons == a.layers[i].nNeurons
           && c.layers[i].nInputs == a.layers[i].nInputs
           && (forall m, n :: 0 <= m < a.layers[i].nNeurons && 0 <= n < a.layers[i].nInputs ==>
                 c.layers[i].weights[m][n] in {a.layers[i].weights[m][n], b.layers[i].weights[m][n]})
           && (forall m :: 0 <= m < a.layers[i].nNeurons ==>
                 c.layers[i].biases[m] in {a.layers[i].biases[m], b.layers[i].biases[m]})
  {
  }

  /** A layer crossed with all-zero draws from `pos` on is a's layer. */
  lemma CrossLayerAllZero(al: Layers.Layer, bl: Layers.Layer, pos: nat, draw: nat -> bool)
    requires al.Valid() && bl.Valid()
    requires bl.nNeurons == al.nNeurons && bl.nInputs == al.nInputs
    requires forall k :: !draw(k)
    ensures CrossLayer(al, bl, pos, draw) == al
  {
    var cl := CrossLayer(al, bl, pos, draw);
    forall m | 0 <= m < al.nNeurons
      ensures cl.weights[m] == al.weights[m]
    {
      assert |cl.weights[m]| == al.nInputs;
    }
    assert cl.weights == al.weights;
    assert cl.biases == al.biases;
  }

  /** A layer crossed with all-one draws from `pos` on carries b's weights and biases. */
  lemma CrossLayerAllOne(al: Layers.Layer, bl: Layers.Layer, pos: nat, draw: nat -> bool)
    requires al.Valid() && bl.Valid()
    requires bl.nNeurons == al.nNeurons && bl.nInputs == al.nInputs
    requires forall k :: draw(k)
    ensures CrossLayer(al, bl, pos, draw).weights == bl.weights
    ensures CrossLayer(al, bl, pos, draw).biases == bl.biases
  {
    var cl := CrossLayer(al, bl, pos, draw);
    forall m | 0 <= m < al.nNeurons
      ensures cl.weights[m] == bl.weights[m]
    {
    }
  }

  /** A layer crossed with itself is unchanged. */
  lemma CrossLayerSelf(al: Layers.Layer, pos: nat, draw: nat -> bool)
    requires al.Valid()
    ensures CrossLayer(al, al, pos, draw) == al
  {
    var cl := CrossLayer(al, al, pos, draw);
    forall m | 0 <= m < al.nNeurons
      ensures cl.weights[m] == al.weights[m]
    {
    }
  }

  /** If every draw is 0 the child is exactly a. */
  lemma AllZeroDrawsGiveA(a: Networks.Network, b: Networks.Network, draw: nat -> bool)
    requires Networks.Valid(a) && Networks.Valid(b)
    requires |a.structure| <= |b.structure| && StructureMatches(a, b)
    requires forall k :: !draw(k)
    ensures Crossover(a, b, draw) == Some(a)
  {
    var c := Crossover(a, b, draw).value;
    forall i | 0 <= i < |a.layers|
      ensures c.layers[i] == a.layers[i]
    {
      CrossLayerAllZero(a.layers[i], b.layers[i], DrawOffset(a.layers, i), draw);
    }
    assert c.layers == a.layers;
  }

  /** If every draw is 1 the child carries b's weights and biases in a's shape. */
  lemma AllOneDrawsGiveB(a: Networks.Network, b: Networks.Network, draw: nat -> bool)
    requires Networks.Valid(a) && Networks.Valid(b)
    requires |a.structure| <= |b.structure| && StructureMatches(a, b)
    requires forall k :: draw(k)
    ensures var c := Crossover(a, b, draw).value;
      forall i :: 0 <= i < |a.layers| ==> c.layers[i].weights == b.layers[i].weights && c.layers[i].biases == b.layers[i].biases
  {
    var c := Crossover(a, b, draw).value;
    forall i | 0 <= i < |a.layers|
      ensures c.layers[i].weights == b.layers[i].weights && c.layers[i].biases == b.layers[i].biases
    {
      CrossLayerAllOne(a.layers[i], b.layers[i], DrawOffset(a.layers, i), draw);
    }
  }

  /** Crossing a network with itself gives the network back, whatever the draws. */
  lemma IdenticalParentsGiveSameChild(a: Networks.Network, draw: nat -> bool)
    requires Networks.Valid(a)
    ensures Crossover(a, a, draw) == Some(a)
  {
    var c := Crossover(a, a, draw).value;
    forall i | 0 <= i < |a.layers|
      ensures c.layers[i] == a.layers[i]
    {
      CrossLayerSelf(a.layers[i], DrawOffset(a.layers, i), draw);
    }
    assert c.layers == a.layers;
  }
}

=== FILE: layer.dfy ===
/**
 * Layer: one layer of neurons. Neuron n owns a weight vector with one entry per
 * layer input and a bias; feeding an input x through the layer computes the
 * weighted input z(n) = w(n)·x + b(n) and the activation sigma(z(n)) of every
 * neuron. The activation function is a parameter (the logistic sigmoid in the
 * library, whose floating-point value is not modelled).
 */
module Layers {
  import opened Wrappers
  import opened Matrices

  datatype Layer = Layer(
    nNeurons: nat,
    nInputs: nat,
    weights: seq<seq<real>>,     // weights[n] is neuron n's weight vector
    biases: seq<real>,           // biases[n] is neuron n's bias
    activationIn: seq<real>,     // the input of the last successful feed-forward
    z: seq<real>,                // weighted input of every neuron
    activationOut: seq<real>,    // activation of every neuron
    error: seq<real>             // back-propagation error of the output layer
  ) {
    /** Every per-neuron vector has one entry per neuron, every weight vector one entry per input. */
    ghost predicate Valid() {
      && |weights| == nNeurons
      && (forall n :: 0 <= n < |weights| ==> |weights[n]| == nInputs)
      && |biases| == nNeurons
      && |z| == nNeurons
      && |activationOut| == nNeurons
    }
  }

  /** Outcome of a layer operation that reports success: the flag and the layer afterwards. */
  datatype Update = Update(ok: bool, layer: Layer)

  /**
   * Layer(nbr_of_neurons, nbr_of_inputs): n neurons with k inputs each. The
   * initial values of a fresh neuron are not shown in the library, so the model
   * starts every weight, bias and output entry at zero.
   */
  function New(n: nat, k: nat): (l: Layer)
    ensures l.Valid()
    ensures l.nNeurons == n && l.nInputs == k
    ensures |l.activationOut| == n && |l.z| == n
  {
    Layer(n, k, seq(n, _ => Repeat(0.0, k)), Repeat(0.0, n), [], Repeat(0.0, n), Repeat(0.0, n), [])
  }

  /**
   * Layer(nbr_of_inputs, weights, biases): one neuron per weight vector, neuron n
   * taking weights[n] and biases[n].
   */
  function FromWeights(k: nat, ws: seq<seq<real>>, bs: seq<real>): (l: Layer)
    requires |ws| == |bs|
    requires forall n :: 0 <= n < |ws| ==> |ws[n]| == k
    ensures l.Valid()
    ensures l.nNeurons == |ws| && l.nInputs == k
    ensures forall n :: 0 <= n < |ws| ==> l.weights[n] == ws[n] && l.biases[n] == bs[n]
  {
    New(|ws|, k).(weights := ws, biases := bs)
  }

  /** The weighted input of every neuron for input x. */
  function WeightedInput(ws: seq<seq<real>>, bs: seq<real>, x: seq<real>): (z: seq<real>)
    requires |ws| == |bs|
    requires forall n :: 0 <= n < |ws| ==> |ws[n]| == |x|
    ensures |z| == |ws|
    ensures forall n :: 0 <= n < |ws| ==> z[n] == Dot(ws[n], x) + bs[n]
  {
    seq(|ws|, n requires 0 <= n < |ws| => Dot(ws[n], x) + bs[n])
  }

  /** Applies the activation function entry by entry. */
  function Activate(z: seq<real>, sigma: real -> real): (a: seq<real>)
    ensures |a| == |z|
    ensures forall n :: 0 <= n < |z| ==> a[n] == sigma(z[n])
  {
    seq(|z|, n requires 0 <= n < |z| => sigma(z[n]))
  }

  /** The layer after a successful feed-forward of x: input, weighted input and activation stored. */
  function Fed(l: Layer, x: seq<real>, sigma: real -> real): (r: Layer)
    requires l.Valid() && |x| == l.nInputs
    ensures r.Valid()
  {
    var z := WeightedInput(l.weights, l.biases, x);
    l.(activationIn := x, z := z, activationOut := Activate(z, sigma))
  }

  /**
   * feedForward exactly as the body is written: a size mismatch returns false and
   * writes nothing, while the success path writes every neuron's output and then
   * reaches the end of the function without a return statement, so the returned
   * value is undefined (modelled as None).
   */
  function FeedForwardAsWritten(l: Layer, x: seq<real>, sigma: real -> real): (r: (Option<bool>, Layer))
    requires l.Valid()
    ensures |x| != l.nInputs ==> r == (Some(false), l)
    ensures |x| == l.nInputs ==> r.0 == None
  {
    if |x| != l.nInputs then (Some(false), l) else (None, Fed(l, x, sigma))
  }

  /** A matching input always leaves the as-written feed-forward without a defined result. */
  lemma FeedForwardAsWrittenHasNoResult()
    ensures FeedForwardAsWritten(New(2, 2), [0.0, 0.0], x => x).0 == None
  {
  }

  /**
   * feedForward as evidently intended (and as the layer's documentation states):
   * true exactly when the input length equals the input count; then every neuron
   * n gets z(n) = w(n)·x + b(n) and activation sigma(z(n)), and the input is kept.
   * On a mismatch nothing changes.
   */
  function FeedForward(l: Layer, x: seq<real>, sigma: real -> real): (r: Update)
    requires l.Valid()
    ensures r.layer.Valid()
    ensures r.layer.nNeurons == l.nNeurons && r.layer.nInputs == l.nInputs
    ensures r.ok <==> |x| == l.nInputs
    ensures !r.ok ==> r.layer == l
    ensures r.ok ==> r.layer.activationIn == x
    ensures r.ok ==> forall n :: 0 <= n < l.nNeurons ==>
                       r.layer.z[n] == Dot(l.weights[n], x) + l.biases[n]
                       && r.layer.activationOut[n] == sigma(r.layer.z[n])
    ensures r.ok ==> r.layer.weights == l.weights && r.layer.biases == l.biases
  {
    if |x| != l.nInputs then Update(false, l) else Update(true, Fed(l, x, sigma))
  }

  /** Example from the layer test: weights [[1,2],[3,4]], biases [0,2], input [1,2] give z = [5,13]. */
  lemma WeightedInputExample(sigma: real -> real)
    ensures FeedForward(FromWeights(2, [[1.0, 2.0], [3.0, 4.0]], [0.0, 2.0]), [1.0, 2.0], sigma).layer.z == [5.0, 13.0]
  {
    var l := FromWeights(2, [[1.0, 2.0], [3.0, 4.0]], [0.0, 2.0]);
    var r := FeedForward(l, [1.0, 2.0], sigma);
    assert Dot([1.0, 2.0], [1.0, 2.0]) == 5.0 by {
      assert Dot([2.0], [2.0]) == 4.0;
    }
    assert Dot([3.0, 4.0], [1.0, 2.0]) == 11.0 by {
      assert Dot([4.0], [2.0]) == 8.0;
    }
  }

  /**
   * setActivationOutput, used by the network for its input layer: accepted when
   * the vector has one entry per neuron, which then becomes the layer's output.
   */
  function SetActivationOutput(l: Layer, a: seq<real>): (r: Update)
    requires l.Valid()
    ensures r.layer.Valid()
    ensures r.layer.nNeurons == l.nNeurons && r.layer.nInputs == l.nInputs
    ensures r.ok <==> |a| == l.nNeurons
    ensures !r.ok ==> r.layer == l
    ensures r.ok ==> r.layer.activationOut == a && r.layer.weights == l.weights && r.layer.biases == l.biases
    ensures r.layer.activationIn == l.activationIn && r.layer.z == l.z && r.layer.error == l.error
  {
    if |a| != l.nNeurons then Update(false, l) else Update(true, l.(activationOut := a))
  }

  /** The feed-forward and back-propagation state of b is that of a. */
  predicate KeepsState(a: Layer, b: Layer) {
    && b.activationIn == a.activationIn
    && b.z == a.z
    && b.activationOut == a.activationOut
    && b.error == a.error
  }

  /** setWeights(vector of vectors): row n of the weight matrix becomes ws[n]; shapes must match. */
  function SetWeightRows(l: Layer, ws: seq<seq<real>>): (r: Update)
    requires l.Valid()
    ensures r.layer.Valid()
    ensures r.layer.nNeurons == l.nNeurons && r.layer.nInputs == l.nInputs
    ensures r.ok <==> |ws| == l.nNeurons && forall n :: 0 <= n < |ws| ==> |ws[n]| == l.nInputs
    ensures !r.ok ==> r.layer == l
    ensures r.ok ==> forall n :: 0 <= n < l.nNeurons ==> WeightMatrix(r.layer).cells[n] == ws[n]
    ensures r.layer.biases == l.biases
    ensures KeepsState(l, r.layer)
  {
    if |ws| == l.nNeurons && forall n :: 0 <= n < |ws| ==> |ws[n]| == l.nInputs
    then Update(true, l.(weights := ws))
    else Update(false, l)
  }

  /** setWeights(matrix): accepted iff the matrix is neurons x inputs, then stored entry for entry. */
  function SetWeightMatrix(l: Layer, w: Mat<real>): (r: Update)
    requires l.Valid() && w.Valid()
    ensures r.layer.Valid()
    ensures r.layer.nNeurons == l.nNeurons && r.layer.nInputs == l.nInputs
    ensures r.ok <==> w.rows == l.nNeurons && w.cols == l.nInputs
    ensures !r.ok ==> r.layer == l
    ensures r.ok ==> forall m, n :: 0 <= m < w.rows && 0 <= n < w.cols ==>
                       WeightMatrix(r.layer).At(m, n) == w.At(m, n)
    ensures r.layer.biases == l.biases
    ensures KeepsState(l, r.layer)
  {
    if w.rows == l.nNeurons && w.cols == l.nInputs then Update(true, l.(weights := w.cells))
    else Update(false, l)
  }

  /** setWeight(c): every weight of every neuron becomes c. */
  function SetWeight(l: Layer, c: real): (r: Layer)
    requires l.Valid()
    ensures r.Valid()
    ensures r.nNeurons == l.nNeurons && r.nInputs == l.nInputs
    ensures forall m, n :: 0 <= m < l.nNeurons && 0 <= n < l.nInputs ==> r.weights[m][n] == c
    ensures r.biases == l.biases
    ensures KeepsState(l, r)
  {
    l.(weights := seq(l.nNeurons, _ => Repeat(c, l.nInputs)))
  }

  /** setBiases(vector): accepted iff there is one bias per neuron; a rejected call changes nothing. */
  function SetBiasVector(l: Layer, bs: seq<real>): (r: Update)
    requires l.Valid()
    ensures r.layer.Valid()
    ensures r.layer.nNeurons == l.nNeurons && r.layer.nInputs == l.nInputs
    ensures r.ok <==> |bs| == l.nNeurons
    ensures !r.ok ==> r.layer == l
    ensures r.ok ==> forall n :: 0 <= n < |bs| ==> r.layer.biases[n] == bs[n]
    ensures r.layer.weights == l.weights
    ensures KeepsState(l, r.layer)
  {
    if |bs| == l.nNeurons then Update(true, l.(biases := bs)) else Update(false, l)
  }

  /** setBiases(matrix): accepted iff the matrix is a column with one entry per neuron. */
  function SetBiasMatrix(l: Layer, b: Mat<real>): (r: Update)
    requires l.Valid() && b.Valid()
    ensures r.layer.Valid()
    ensures r.layer.nNeurons == l.nNeurons && r.layer.nInputs == l.nInputs
    ensures r.ok <==> b.rows == l.nNeurons && b.cols == 1
    ensures !r.ok ==> r.layer == l
    ensures r.ok ==> forall n :: 0 <= n < b.rows ==> r.layer.biases[n] == b.At(n, 0)
    ensures r.layer.weights == l.weights
    ensures KeepsState(l, r.layer)
  {
    if b.rows == l.nNeurons && b.cols == 1
    then Update(true, l.(biases := seq(b.rows, n requires 0 <= n < b.rows => b.At(n, 0))))
    else Update(false, l)
  }

  /** setBias(c): every neuron's bias becomes c. */
  function SetBias(l: Layer, c: real): (r: Layer)
    requires l.Valid()
    ensures r.Valid()
    ensures r.nNeurons == l.nNeurons && r.nInputs == l.nInputs
    ensures forall n :: 0 <= n < l.nNeurons ==> r.biases[n] == c
    ensures r.weights == l.weights
    ensures KeepsState(l, r)
  {
    l.(biases := Repeat(c, l.nNeurons))
  }

  /** getWeightMatrix: the neurons x inputs matrix whose row n is neuron n's weight vector. */
  function WeightMatrix(l: Layer): (w: Mat<real>)
    requires l.Valid()
    ensures w.Valid() && w.rows == l.nNeurons && w.cols == l.nInputs
  {
    Mat(l.nNeurons, l.nInputs, l.weights)
  }

  /** getBiasVector: the biases as a neurons x 1 column. */
  function BiasVector(l: Layer): (b: Mat<real>)
    requires l.Valid()
    ensures b.Valid() && b.rows == l.nNeurons && b.cols == 1
  {
    Column(l.biases)
  }

  /**
   * computeBackpropagationOutputLayerError: false when the expected output does
   * not have one entry per neuron. Otherwise the error is the cost function's
   * delta of (z, activation, expected output); the cost function is a parameter.
   */
  function ComputeOutputLayerError(l: Layer, y: seq<real>, delta: (seq<real>, seq<real>, seq<real>) -> seq<real>): (r: Update)
    requires l.Valid()
    ensures r.layer.Valid()
    ensures r.ok <==> |y| == l.nNeurons
    ensures !r.ok ==> r.layer == l
    ensures r.ok ==> r.layer == l.(error := delta(l.z, l.activationOut, y))
  {
    if |y| != l.nNeurons then Update(false, l) else Update(true, l.(error := delta(l.z, l.activationOut, y)))
  }

  /** Setting a weight matrix and reading it back gives the same matrix. */
  lemma SetThenGetWeights(l: Layer, w: Mat<real>)
    requires l.Valid() && w.Valid()
    requires w.rows == l.nNeurons && w.cols == l.nInputs
    ensures SetWeightMatrix(l, w).ok && WeightMatrix(SetWeightMatrix(l, w).layer) == w
  {
  }

  /** Setting a bias vector and reading it back gives the same column. */
  lemma SetThenGetBiases(l: Layer, bs: seq<real>)
    requires l.Valid() && |bs| == l.nNeurons
    ensures SetBiasVector(l, bs).ok && BiasVector(SetBiasVector(l, bs).layer) == Column(bs)
  {
  }

  /** The layer test's scenario: a 2 x 2 layer accepts two biases and rejects three, keeping the old ones. */
  lemma SetBiasesExample()
    ensures SetBiasVector(New(2, 2), [5.0, 6.0]).ok
    ensures !SetBiasVector(SetBiasVector(New(2, 2), [5.0, 6.0]).layer, [5.0, 6.0, 7.0]).ok
    ensures SetBiasVector(SetBiasVector(New(2, 2), [5.0, 6.0]).layer, [5.0, 6.0, 7.0]).layer.biases == [5.0, 6.0]
  {
  }
}

=== FILE: matrices.dfy ===
/**
 * Dense matrices as used by the library (Eigen::MatrixXd / MatrixXi): a row count,
 * a column count and the rows themselves. The explicit dimensions keep a 0 x n
 * matrix distinct from an n x 0 one, as Eigen does.
 */
module Matrices {

  datatype Mat<T> = Mat(rows: nat, cols: nat, cells: seq<seq<T>>) {

    /** The stored rows agree with the declared dimensions. */
    ghost predicate Valid() {
      |cells| == rows && forall m :: 0 <= m < |cells| ==> |cells[m]| == cols
    }

    /** Entry (m, n), row m and column n. */
    function At(m: nat, n: nat): T
      requires Valid() && m < rows && n < cols
    {
      cells[m][n]
    }
  }

  /** A row of `n` copies of `v`. */
  function Repeat<T>(v: T, n: nat): (r: seq<T>)
    ensures |r| == n
    ensures forall i :: 0 <= i < n ==> r[i] == v
  {
    seq(n, _ => v)
  }

  /** The rows x cols matrix whose every entry is `v` (Eigen's Constant / Ones / setZero). */
  function Constant<T>(rows: nat, cols: nat, v: T): (r: Mat<T>)
    ensures r.Valid() && r.rows == rows && r.cols == cols
    ensures forall m, n :: 0 <= m < rows && 0 <= n < cols ==> r.At(m, n) == v
  {
    Mat(rows, cols, seq(rows, _ => Repeat(v, cols)))
  }

  /** The n x 1 matrix holding the column vector `v`. */
  function Column<T>(v: seq<T>): (r: Mat<T>)
    ensures r.Valid() && r.rows == |v| && r.cols == 1
    ensures forall m :: 0 <= m < |v| ==> r.At(m, 0) == v[m]
  {
    Mat(|v|, 1, seq(|v|, m requires 0 <= m < |v| => [v[m]]))
  }

  /** Inner product of two vectors of equal length, summed from the front. */
  function Dot(w: seq<real>, x: seq<real>): real
    requires |w| == |x|
  {
    if |w| == 0 then 0.0 else w[0] * x[0] + Dot(w[1..], x[1..])
  }
}

=== FILE: mnist_data_input.dfy ===
/**
 * MNIST data input (digit example): copies one sample out of the image and
 * label sets, reshapes a 784-pixel column into a 28 x 28 picture, and serves
 * the stored test images.
 */
module MnistData {
  import opened Wrappers
  import opened Matrices
  import DataInput

  type Byte = x: int | 0 <= x < 256

  const ImgW: nat := 28
  const ImgH: nat := 28

  /** The outcome of loadMNISTSample: rejected, aborted by a bounds-checked read, or the copied sample. */
  datatype Sample = NotLoaded | OutOfRange | Loaded(img: Mat<real>, classLabel: Byte)

  /**
   * loadMNISTSample: false when idx is not below the larger set size. Otherwise
   * the label and the image at idx are read with bounds checks (which throw when
   * the smaller set is too short) and the image becomes a column.
   */
  function LoadMNISTSample(imgSet: seq<seq<real>>, lableSet: seq<Byte>, idx: nat): (r: Sample)
    ensures r.NotLoaded? <==> idx >= |imgSet| && idx >= |lableSet|
    ensures r.Loaded? <==> idx < |imgSet| && idx < |lableSet|
    ensures r.Loaded? ==> r.classLabel == lableSet[idx]
    ensures r.Loaded? ==> r.img.Valid() && r.img.rows == |imgSet[idx]| && r.img.cols == 1
    ensures r.Loaded? ==> forall i :: 0 <= i < |imgSet[idx]| ==> r.img.At(i, 0) == imgSet[idx][i]
  {
    if (if |imgSet| >= |lableSet| then |imgSet| else |lableSet|) <= idx then NotLoaded
    else if idx >= |lableSet| || idx >= |imgSet| then OutOfRange
    else Loaded(Column(imgSet[idx]), lableSet[idx])
  }

  /** Reading the copied column back gives the stored image. */
  lemma LoadedImageRoundTrip(imgSet: seq<seq<real>>, lableSet: seq<Byte>, idx: nat)
    requires idx < |imgSet| && idx < |lableSet|
    ensures var r := LoadMNISTSample(imgSet, lableSet, idx);
            r.Loaded? && ColumnValues(r.img) == imgSet[idx]
  {
  }

  /** The first column of a matrix as a vector. */
  function ColumnValues(m: Mat<real>): (v: seq<real>)
    requires m.Valid() && m.cols >= 1
    ensures |v| == m.rows && forall i :: 0 <= i < m.rows ==> v[i] == m.At(i, 0)
  {
    seq(m.rows, i requires 0 <= i < m.rows => m.At(i, 0))
  }

  /** The picture next to its availability flag. */
  datatype Representation = Representation(available: bool, picture: Mat<real>)

  /**
   * representation: an input with other than 28 * 28 rows is returned unchanged
   * with the flag false; otherwise pixel (h, w) of the 28 x 28 picture is
   * row 28 h + w of the input's first column, and the flag is true.
   */
  function ToRepresentation(input: Mat<real>): (r: Representation)
    requires input.Valid()
    requires input.rows == ImgH * ImgW ==> input.cols >= 1
    ensures !r.available <==> input.rows != ImgH * ImgW
    ensures !r.available ==> r.picture == input
    ensures r.available ==> r.picture.Valid() && r.picture.rows == ImgH && r.picture.cols == ImgW
    ensures r.available ==> forall h, w :: 0 <= h < ImgH && 0 <= w < ImgW ==>
              r.picture.At(h, w) == input.At(ImgW * h + w, 0)
  {
    if ImgH * ImgW != input.rows then Representation(false, input)
    else
      Representation(true, Mat(ImgH, ImgW,
        seq(ImgH, h requires 0 <= h < ImgH =>
          seq(ImgW, w requires 0 <= w < ImgW => input.At(ImgW * h + w, 0)))))
  }

  /** Row-major flattening of a 28 x 28 picture. */
  function Flatten(p: Mat<real>): (v: seq<real>)
    requires p.Valid() && p.rows == ImgH && p.cols == ImgW
    ensures |v| == ImgH * ImgW
  {
    seq(ImgH * ImgW, i requires 0 <= i < ImgH * ImgW => p.At(i / ImgW, i % ImgW))
  }

  /** Flattening the picture gives back the input column. */
  lemma RepresentationFlattenRoundTrip(input: Mat<real>)
    requires input.Valid() && input.rows == ImgH * ImgW && input.cols >= 1
    ensures ToRepresentation(input).available
    ensures Flatten(ToRepresentation(input).picture) == ColumnValues(input)
  {
    var p := ToRepresentation(input).picture;
    forall i | 0 <= i < ImgH * ImgW
      ensures Flatten(p)[i] == ColumnValues(input)[i]
    {
      assert ImgW * (i / ImgW) + i % ImgW == i;
    }
  }

  /** Representing a flattened picture gives back the picture. */
  lemma FlattenRepresentationRoundTrip(p: Mat<real>)
    requires p.Valid() && p.rows == ImgH && p.cols == ImgW
    ensures ToRepresentation(Column(Flatten(p))).picture == p
  {
    var r := ToRepresentation(Column(Flatten(p))).picture;
    forall h | 0 <= h < ImgH
      ensures r.cells[h] == p.cells[h]
    {
      forall w | 0 <= w < ImgW
        ensures r.cells[h][w] == p.cells[h][w]
      {
        var i := ImgW * h + w;
        assert i / ImgW == h && i % ImgW == w;
      }
    }
  }

  /** getTestImageAsPixelValues: the idx-th stored test image; a bounds-checked read that fails past the end. */
  function GetTestImageAsPixelValues(testImages: seq<DataInput.DataElement<Byte>>, idx: nat): (r: Option<DataInput.DataElement<Byte>>)
    ensures r.Some? <==> idx < |testImages|
    ensures r.Some? ==> r.value == testImages[idx]
  {
    if idx < |testImages| then Some(testImages[idx]) else None
  }
}

=== FILE: network.dfy ===
/**
 * Network: a chain of layers built from a structure vector (neurons per layer).
 * Layer 0 is the input layer: it has no inputs and its output is the network
 * input itself. Every later layer takes the previous layer's activation.
 */
module Networks {
  import opened Wrappers
  import opened Matrices
  import Layers

  datatype Network = Network(structure: seq<nat>, layers: seq<Layers.Layer>, output: seq<real>)

  /** The input count of layer k: none for the input layer, else the previous layer's neuron count. */
  function InputsOf(structure: seq<nat>, k: nat): nat
    requires k < |structure|
  {
    if k == 0 then 0 else structure[k - 1]
  }

  /** Layer k has structure[k] neurons and InputsOf(structure, k) inputs. */
  ghost predicate Wired(structure: seq<nat>, ls: seq<Layers.Layer>) {
    && |ls| == |structure|
    && forall k {:trigger ls[k]} :: 0 <= k < |ls| ==>
         && ls[k].Valid()
         && ls[k].nNeurons == structure[k]
         && ls[k].nInputs == InputsOf(structure, k)
  }

  /** A network as the constructor leaves it: non-empty structure, wired layers. */
  ghost predicate Valid(net: Network) {
    |net.structure| > 0 && Wired(net.structure, net.layers)
  }

  /**
   * The loop of initNetwork from the current position on: each remaining entry
   * becomes a layer with that many neurons and `nbrOfInputs` inputs, and the
   * next layer's input count becomes this layer's neuron count.
   */
  function BuildLayers(rest: seq<nat>, nbrOfInputs: nat): (ls: seq<Layers.Layer>)
    ensures |ls| == |rest|
    ensures forall k :: 0 <= k < |rest| ==>
              && ls[k].Valid()
              && ls[k].nNeurons == rest[k]
              && ls[k].nInputs == (if k == 0 then nbrOfInputs else rest[k - 1])
  {
    if |rest| == 0 then []
    else [Layers.New(rest[0], nbrOfInputs)] + BuildLayers(rest[1..], rest[0])
  }

  /**
   * Network(structure): one layer per structure entry, wired as described above;
   * the output vector has as many entries as the last layer has neurons. The
   * constructor reads structure.back(), so the structure must not be empty.
   */
  function New(structure: seq<nat>): (net: Network)
    requires |structure| > 0
    ensures Valid(net)
    ensures net.structure == structure
    ensures |net.output| == structure[|structure| - 1]
  {
    Network(structure, BuildLayers(structure, 0), Repeat(0.0, structure[|structure| - 1]))
  }

  /** getNumberOfLayer: the length of the structure, which is the number of layers built from it. */
  function NumberOfLayers(net: Network): (n: nat)
    ensures n == |net.structure|
    ensures Valid(net) ==> n == |net.layers| && n >= 1
  {
    |net.structure|
  }

  /** getLayer: no layer (null) for an index at or beyond the layer count, else the layer at that index. */
  function GetLayer(net: Network, i: nat): (r: Option<Layers.Layer>)
    requires Valid(net)
    ensures r.None? <==> i >= NumberOfLayers(net)
    ensures r.Some? ==> r.value == net.layers[i]
  {
    if i >= NumberOfLayers(net) then None else Some(net.layers[i])
  }

  /** getOutputLayer: the layer at index count - 1. */
  function GetOutputLayer(net: Network): (l: Layers.Layer)
    requires Valid(net)
    ensures Some(l) == GetLayer(net, NumberOfLayers(net) - 1)
    ensures l.nNeurons == net.structure[|net.structure| - 1]
  {
    net.layers[|net.layers| - 1]
  }

  /** The layer test's network {1,2,2}: three layers, input counts 0, 1, 2, and no layer 3. */
  lemma ConstructExample()
    ensures NumberOfLayers(New([1, 2, 2])) == 3
    ensures GetLayer(New([1, 2, 2]), 0).value.nNeurons == 1
    ensures GetLayer(New([1, 2, 2]), 1).value.nNeurons == 2 && GetLayer(New([1, 2, 2]), 1).value.nInputs == 1
    ensures GetLayer(New([1, 2, 2]), 2).value.nNeurons == 2 && GetLayer(New([1, 2, 2]), 2).value.nInputs == 2
    ensures GetLayer(New([1, 2, 2]), 3).None?
  {
  }

  /** Shape facts a feed-forward or a training step must leave alone. */
  ghost predicate SameShape(a: seq<Layers.Layer>, b: seq<Layers.Layer>) {
    && |a| == |b|
    && forall j :: 0 <= j < |a| ==>
         && b[j].Valid()
         && b[j].nNeurons == a[j].nNeurons
         && b[j].nInputs == a[j].nInputs
         && b[j].weights == a[j].weights
         && b[j].biases == a[j].biases
  }

  lemma SameShapeKeepsWiring(structure: seq<nat>, a: seq<Layers.Layer>, b: seq<Layers.Layer>)
    requires Wired(structure, a) && SameShape(a, b)
    ensures Wired(structure, b)
  {
  }

  /**
   * The feed loop from layer k on: layer j is fed layer j-1's activation; the
   * first rejection stops the loop with false, keeping the layers fed so far.
   */
  function FeedFrom(ls: seq<Layers.Layer>, k: nat, sigma: real -> real): (r: (bool, seq<Layers.Layer>))
    requires 1 <= k <= |ls|
    requires forall j :: 0 <= j < |ls| ==> ls[j].Valid()
    decreases |ls| - k
    ensures SameShape(ls, r.1)
    ensures r.1[..k] == ls[..k]
    ensures r.0 ==> forall j :: k <= j < |ls| ==>
              r.1[j] == Layers.FeedForward(ls[j], r.1[j - 1].activationOut, sigma).layer
    ensures r.0 ==> forall j :: k <= j < |ls| ==> r.1[j].activationIn == r.1[j - 1].activationOut
    ensures (forall j :: k <= j < |ls| ==> ls[j].nInputs == ls[j - 1].nNeurons) ==> r.0
  {
    if k == |ls| then (true, ls)
    else
      var u := Layers.FeedForward(ls[k], ls[k - 1].activationOut, sigma);
      if !u.ok then (false, ls)
      else
        var ls' := ls[k := u.layer];
        assert ls'[k - 1] == ls[k - 1];
        var r := FeedFrom(ls', k + 1, sigma);
        assert r.1[..k + 1] == ls'[..k + 1];
        assert r.1[k] == u.layer && r.1[k - 1] == ls[k - 1] by {
          assert r.1[k] == (r.1[..k + 1])[k];
          assert r.1[k - 1] == (r.1[..k + 1])[k - 1];
        }
        assert r.1[..k] == ls[..k] by {
          assert r.1[..k] == (r.1[..k + 1])[..k];
        }
        r
  }

  datatype FeedResult = FeedResult(ok: bool, net: Network)

  /**
   * feedForward: layer 0 takes x as its output (false if x does not have one
   * entry per input neuron), then each later layer is fed its predecessor's
   * activation (false at the first rejection). On success the network output is
   * the last layer's activation.
   */
  function FeedForward(net: Network, x: seq<real>, sigma: real -> real): (r: FeedResult)
    requires Valid(net)
    ensures Valid(r.net) && r.net.structure == net.structure
    ensures SameShape(net.layers, r.net.layers)
    ensures r.ok <==> |x| == net.structure[0]
    ensures |x| != net.structure[0] ==> r.net == net
    ensures r.ok ==> r.net.layers[0].activationOut == x
    ensures r.ok ==> forall k :: 1 <= k < |net.layers| ==>
              r.net.layers[k].activationIn == r.net.layers[k - 1].activationOut
    ensures r.ok ==> r.net.output == r.net.layers[|net.layers| - 1].activationOut
    ensures r.ok ==> |r.net.output| == net.structure[|net.structure| - 1]
  {
    var u := Layers.SetActivationOutput(net.layers[0], x);
    if !u.ok then FeedResult(false, net)
    else
      var ls := net.layers[0 := u.layer];
      var f := FeedFrom(ls, 1, sigma);
      assert f.0;
      assert f.1[0] == u.layer by {
        assert f.1[0] == (f.1[..1])[0];
      }
      assert SameShape(net.layers, f.1);
      SameShapeKeepsWiring(net.structure, net.layers, f.1);
      FeedResult(true, net.(layers := f.1, output := f.1[|f.1| - 1].activationOut))
  }

  /** One step of back-propagation, in the order the library performs them. */
  datatype Step =
    | OutputError(layer: nat)   // computeBackpropagationOutputLayerError + partial derivatives
    | HiddenError(layer: nat)   // computeBackprogationError + partial derivatives
    | UpdateWeights(layer: nat) // updateWeightsAndBiases(eta)

  datatype TrainResult = TrainResult(ok: bool, net: Network, steps: seq<Step>)

  /** No error computation comes after a weight update. */
  ghost predicate ErrorsBeforeUpdates(steps: seq<Step>) {
    forall i, j :: 0 <= i < j < |steps| && steps[i].UpdateWeights? ==> steps[j].UpdateWeights?
  }

  /**
   * The order of the training loops for a network of n layers: the output
   * layer's error first, then the errors of layers n-2 down to 0, then the
   * weight updates of layers 1 up to n-1.
   */
  ghost predicate IsSchedule(steps: seq<Step>, n: nat) {
    && n >= 1
    && |steps| == 2 * n - 1
    && steps[0] == OutputError(n - 1)
    && (forall i :: 1 <= i < n ==> steps[i] == HiddenError(n - 1 - i))
    && (forall i :: n <= i < |steps| ==> steps[i] == UpdateWeights(i - n + 1))
  }

  /** In the training order every error is computed before the first update. */
  lemma ScheduleComputesErrorsFirst(steps: seq<Step>, n: nat)
    requires IsSchedule(steps, n)
    ensures ErrorsBeforeUpdates(steps)
  {
    forall i, j | 0 <= i < j < |steps| && steps[i].UpdateWeights?
      ensures steps[j].UpdateWeights?
    {
      assert i >= n;
    }
  }

  /** The error steps followed by the update steps form the training order. */
  lemma ErrorsThenUpdatesIsSchedule(errorSteps: seq<Step>, updateSteps: seq<Step>, n: nat)
    requires n >= 1
    requires |errorSteps| == n && errorSteps[0] == OutputError(n - 1)
    requires forall i :: 1 <= i < n ==> errorSteps[i] == HiddenError(n - 1 - i)
    requires |updateSteps| == n - 1 && forall i :: 0 <= i < |updateSteps| ==> updateSteps[i] == UpdateWeights(i + 1)
    ensures IsSchedule(errorSteps + updateSteps, n)
  {
    var steps := errorSteps + updateSteps;
    forall i | n <= i < |steps|
      ensures steps[i] == UpdateWeights(i - n + 1)
    {
      assert steps[i] == updateSteps[i - n];
    }
  }

  /**
   * The layers after the error loops, as a value: the output layer receives
   * `outErr`, and every earlier layer the error `hidden` computes from it and
   * from the next layer's error and weights, as computeBackprogationError does.
   */
  function WithErrors(ls: seq<Layers.Layer>, outErr: seq<real>,
                      hidden: (Layers.Layer, seq<real>, seq<seq<real>>) -> seq<real>): (r: seq<Layers.Layer>)
    requires |ls| >= 1
    ensures |r| == |ls|
    ensures r[|ls| - 1] == ls[|ls| - 1].(error := outErr)
    ensures forall k {:trigger ls[k]} :: 0 <= k < |ls| - 1 ==>
              r[k] == ls[k].(error := hidden(ls[k], r[k + 1].error, r[k + 1].weights))
    decreases |ls|
  {
    if |ls| == 1 then [ls[0].(error := outErr)]
    else
      var rest := WithErrors(ls[1..], outErr, hidden);
      assert forall k :: 1 <= k < |ls| ==> ls[1..][k - 1] == ls[k];
      [ls[0].(error := hidden(ls[0], rest[0].error, rest[0].weights))] + rest
  }

  /**
   * The layers after a whole backprop pass over the fed-forward layers `fed`:
   * layer 0 carries its error only, and every later layer k is the update of
   * layer k carrying its error.
   */
  ghost predicate Trained(layers: seq<Layers.Layer>, fed: seq<Layers.Layer>, outErr: seq<real>,
                          hidden: (Layers.Layer, seq<real>, seq<seq<real>>) -> seq<real>,
                          learn: (nat, Layers.Layer) -> Layers.Layer)
    requires |fed| >= 1
  {
    var es := WithErrors(fed, outErr, hidden);
    && |layers| == |fed|
    && layers[0] == es[0]
    && forall k :: 1 <= k < |fed| ==> layers[k] == learn(k, es[k])
  }

  /**
   * The error loops of backprop: the output layer first, then layers n-2 down
   * to 0, each layer receiving its error and nothing else; `steps` records
   * each layer as its error is computed.
   */
  method ComputeErrors(ls: seq<Layers.Layer>, outErr: seq<real>,
                       hidden: (Layers.Layer, seq<real>, seq<seq<real>>) -> seq<real>)
    returns (r: seq<Layers.Layer>, steps: seq<Step>)
    requires |ls| >= 1
    ensures r == WithErrors(ls, outErr, hidden)
    ensures |steps| == |ls| && steps[0] == OutputError(|ls| - 1)
    ensures forall i :: 1 <= i < |ls| ==> steps[i] == HiddenError(|ls| - 1 - i)
  {
    var n := |ls|;
    ghost var w := WithErrors(ls, outErr, hidden);
    r := ls[n - 1 := ls[n - 1].(error := outErr)];
    steps := [OutputError(n - 1)];
    var k: int := n - 2;
    while k >= 0
      invariant -1 <= k <= n - 2
      invariant |r| == n
      invariant forall i :: k < i < n ==> r[i] == w[i]
      invariant forall i :: 0 <= i <= k ==> r[i] == ls[i]
      invariant |steps| == n - 1 - k && steps[0] == OutputError(n - 1)
      invariant forall i :: 1 <= i < |steps| ==> steps[i] == HiddenError(n - 1 - i)
    {
      r := r[k := ls[k].(error := hidden(ls[k], r[k + 1].error, r[k + 1].weights))];
      steps := steps + [HiddenError(k)];
      k := k - 1;
    }
  }

  /**
   * The update loop: layers 1 .. n-1 are replaced by their updated versions,
   * layer 0 is kept; `steps` records each layer as it is updated.
   */
  method UpdateLayers(ls: seq<Layers.Layer>, learn: (nat, Layers.Layer) -> Layers.Layer)
    returns (r: seq<Layers.Layer>, steps: seq<Step>)
    requires |ls| >= 1
    ensures |r| == |ls| && r[0] == ls[0]
    ensures forall k :: 1 <= k < |ls| ==> r[k] == learn(k, ls[k])
    ensures |steps| == |ls| - 1 && forall i :: 0 <= i < |steps| ==> steps[i] == UpdateWeights(i + 1)
  {
    r := ls;
    steps := [];
    var j := 1;
    while j < |ls|
      invariant 1 <= j <= |ls|
      invariant |r| == |ls| && r[0] == ls[0]
      invariant forall i :: 1 <= i < j ==> r[i] == learn(i, ls[i])
      invariant forall i :: j <= i < |ls| ==> r[i] == ls[i]
      invariant |steps| == j - 1 && forall i :: 0 <= i < |steps| ==> steps[i] == UpdateWeights(i + 1)
    {
      r := r[j := learn(j, r[j])];
      steps := steps + [UpdateWeights(j)];
      j := j + 1;
    }
  }

  /**
   * The training loops of backprop over the fed-forward layers: the error loop
   * and then the update loop, their steps in the order they run.
   */
  method TrainLayers(fed: seq<Layers.Layer>, outErr: seq<real>,
                     hidden: (Layers.Layer, seq<real>, seq<seq<real>>) -> seq<real>,
                     learn: (nat, Layers.Layer) -> Layers.Layer)
    returns (ls: seq<Layers.Layer>, steps: seq<Step>)
    requires |fed| >= 1
    ensures Trained(ls, fed, outErr, hidden, learn)
    ensures IsSchedule(steps, |fed|) && ErrorsBeforeUpdates(steps)
  {
    var es, errorSteps := ComputeErrors(fed, outErr, hidden);
    var updateSteps;
    ls, updateSteps := UpdateLayers(es, learn);
    steps := errorSteps + updateSteps;
    ErrorsThenUpdatesIsSchedule(errorSteps, updateSteps, |fed|);
    ScheduleComputesErrorsFirst(steps, |fed|);
  }

  /**
   * backpropagation: feed x forward (false if that fails), reject a desired
   * output whose length differs from the network output before touching any
   * layer, then compute errors from the output layer down to layer 0 and finally
   * update weights and biases of layers 1 .. count-1 (never layer 0). The
   * floating-point values are not modelled: `costDelta(z, a, y)` stands for the
   * output layer's error, `hidden(l, e, w)` for the error of layer l given the
   * next layer's error e and weights w, and `learn(k, l)` for the update of
   * layer k. The steps are recorded by the loops as they run.
   */
  method Backpropagation(net: Network, x: seq<real>, y: seq<real>, sigma: real -> real,
                         costDelta: (seq<real>, seq<real>, seq<real>) -> seq<real>,
                         hidden: (Layers.Layer, seq<real>, seq<seq<real>>) -> seq<real>,
                         learn: (nat, Layers.Layer) -> Layers.Layer)
    returns (r: TrainResult)
    requires Valid(net)
    ensures r.ok <==> |x| == net.structure[0] && |y| == net.structure[|net.structure| - 1]
    ensures !r.ok ==> r.steps == [] && r.net == FeedForward(net, x, sigma).net
    ensures r.ok ==> IsSchedule(r.steps, |net.structure|) && ErrorsBeforeUpdates(r.steps)
    ensures r.ok ==> |r.net.layers| == |net.layers|
    ensures r.ok ==>
              var fed := FeedForward(net, x, sigma).net.layers;
              var out := fed[|fed| - 1];
              Trained(r.net.layers, fed, costDelta(out.z, out.activationOut, y), hidden, learn)
  {
    var f := FeedForward(net, x, sigma);
    if !f.ok {
      return TrainResult(false, f.net, []);
    }
    if |f.net.output| != |y| {
      return TrainResult(false, f.net, []);
    }
    var out := f.net.layers[|f.net.layers| - 1];
    var ls, steps := TrainLayers(f.net.layers, costDelta(out.z, out.activationOut, y), hidden, learn);
    r := TrainResult(true, f.net.(layers := ls), steps);
  }
}

=== FILE: regularization.dfy ===
/**
 * Regularization: an optional weight-decay term added to a cost function. It
 * keeps the method, the decay factor (lambda in the library), the current sum of squared weights and
 * the number of training samples.
 */
module Regularizations {
  import opened Wrappers

  datatype Method = NoneRegularization | WeightDecay

  datatype Regularization = Regularization(kind: Method, decay: real, weightSum: real, nbrSamples: nat)

  /** Regularization(method, lambda): weight sum 1.0 and one sample until the trainer sets them. */
  function New(kind: Method, decay: real): (r: Regularization)
    ensures r.kind == kind && r.decay == decay
    ensures r.weightSum == 1.0 && r.nbrSamples == 1
  {
    Regularization(kind, decay, 1.0, 1)
  }

  /** Regularization(): no regularization, lambda 1.0. */
  function Default(): (r: Regularization)
    ensures r == New(NoneRegularization, 1.0)
  {
    Regularization(NoneRegularization, 1.0, 1.0, 1)
  }

  /** toString: the method's display name. */
  function ToString(r: Regularization): (s: string)
    ensures r.kind.NoneRegularization? ==> s == "None"
    ensures r.kind.WeightDecay? ==> s == "Weight Decay"
  {
    match r.kind
    case NoneRegularization => "None"
    case WeightDecay => "Weight Decay"
  }

  /** The two methods have different names, so the name identifies the method. */
  lemma ToStringDistinguishes(r: Regularization, q: Regularization)
    requires ToString(r) == ToString(q)
    ensures r.kind == q.kind
  {
  }

  /**
   * regularizationCost: 0 without regularization; with weight decay,
   * lambda / (2 n) times the weight sum. With no samples the division yields
   * no finite number, modelled as None.
   */
  function RegularizationCost(r: Regularization): (c: Option<real>)
    ensures r.kind.NoneRegularization? ==> c == Some(0.0)
    ensures r.kind.WeightDecay? ==> (c.Some? <==> r.nbrSamples > 0)
    ensures r.kind.WeightDecay? && r.nbrSamples > 0 ==>
              c.value * 2.0 * r.nbrSamples as real == r.decay * r.weightSum
  {
    match r.kind
    case NoneRegularization => Some(0.0)
    case WeightDecay =>
      if r.nbrSamples == 0 then None
      else Some(r.decay / (2.0 * r.nbrSamples as real) * r.weightSum)
  }

  /** Weight decay never rewards: with non-negative lambda and weight sum the cost is non-negative, and it grows with the weights. */
  lemma CostMonotone(r: Regularization, heavier: real)
    requires r.kind.WeightDecay? && r.nbrSamples > 0
    requires r.decay >= 0.0 && 0.0 <= r.weightSum <= heavier
    ensures RegularizationCost(r).value >= 0.0
    ensures RegularizationCost(r).value <= RegularizationCost(r.(weightSum := heavier)).value
  {
    var k := r.decay / (2.0 * r.nbrSamples as real);
    assert k >= 0.0;
    assert k * r.weightSum <= k * heavier;
  }

  /** A freshly built weight-decay term costs lambda / 2. */
  lemma FreshCostIsHalfLambda(decay: real)
    ensures RegularizationCost(New(WeightDecay, decay)) == Some(decay / 2.0)
  {
    var r := New(WeightDecay, decay);
    assert r.nbrSamples == 1 && r.weightSum == 1.0;
    assert decay / (2.0 * 1 as real) * 1.0 == decay / 2.0;
  }
}

=== FILE: simulation.dfy ===
/**
 * Simulation: one agent under evolution. It owns a shared pointer to a neural
 * network; several simulations may point at the same network, so networks
 * live in a heap (a sequence indexed by address) and a simulation holds an
 * address. `B` is the concrete simulation's own state (a car, for instance).
 */
module Simulations {
  import opened Wrappers
  import Networks
  import Genetic

  /** A shared pointer to a network: null, or the address of a heap cell. */
  datatype NetPtr = Null | Ptr(addr: nat)

  type Heap = seq<Networks.Network>

  predicate Points(heap: Heap, p: NetPtr) {
    p.Ptr? && p.addr < |heap|
  }

  function Deref(heap: Heap, p: NetPtr): Networks.Network
    requires Points(heap, p)
  {
    heap[p.addr]
  }

  datatype Sim<B> = Sim(alive: bool, network: NetPtr, body: B)

  /** Simulation(): alive, with no network yet. */
  function New<B>(body: B): (s: Sim<B>)
    ensures IsAlive(s) && s.network == Null && s.body == body
  {
    Sim(true, Null, body)
  }

  /** isAlive: the flag set at construction and cleared by kill. */
  predicate IsAlive<B>(s: Sim<B>)
    ensures IsAlive(s) <==> s.alive
  {
    s.alive
  }

  /** doStep: a living simulation runs its update hook; a dead one is left exactly as it is. */
  function DoStep<B>(s: Sim<B>, update: Sim<B> -> Sim<B>): (r: Sim<B>)
    ensures !IsAlive(s) ==> r == s
    ensures IsAlive(s) ==> r == update(s)
  {
    if IsAlive(s) then update(s) else s
  }

  /** kill: the simulation is dead afterwards; network and state stay. */
  function Kill<B>(s: Sim<B>): (r: Sim<B>)
    ensures !IsAlive(r)
    ensures r.network == s.network && r.body == s.body
  {
    s.(alive := false)
  }

  /** A run of doStep calls, one update hook per call. */
  function Run<B>(s: Sim<B>, updates: seq<Sim<B> -> Sim<B>>): Sim<B>
    decreases |updates|
  {
    if |updates| == 0 then s else Run(DoStep(s, updates[0]), updates[1..])
  }

  /** Nothing revives a dead simulation: any run of steps leaves it unchanged. */
  lemma {:induction false} DeadStaysDead<B>(s: Sim<B>, updates: seq<Sim<B> -> Sim<B>>)
    requires !IsAlive(s)
    ensures Run(s, updates) == s
    decreases |updates|
  {
    if |updates| > 0 {
      DeadStaysDead(DoStep(s, updates[0]), updates[1..]);
    }
  }

  /** After kill, further steps change nothing, whatever the update hooks do. */
  lemma KilledIsFinal<B>(s: Sim<B>, updates: seq<Sim<B> -> Sim<B>>)
    ensures Run(Kill(s), updates) == Kill(s)
  {
    DeadStaysDead(Kill(s), updates);
  }

  /** The base class's fitness: every simulation scores 0.0 unless overridden. */
  function BaseFitness<B>(s: Sim<B>): (f: real)
    ensures f == 0.0
  {
    0.0
  }

  /** getNetwork: the shared pointer the simulation holds. */
  function GetNetwork<B>(s: Sim<B>): (p: NetPtr)
    ensures p == s.network
  {
    s.network
  }

  /** setNetwork: replaces the pointer only. */
  function SetNetwork<B>(s: Sim<B>, p: NetPtr): (r: Sim<B>)
    ensures GetNetwork(r) == p
    ensures r.alive == s.alive && r.body == s.body
  {
    s.(network := p)
  }

  /** Setting the pointer it already has changes nothing; the last set wins. */
  lemma SetNetworkLaws<B>(s: Sim<B>, p: NetPtr, q: NetPtr)
    ensures SetNetwork(s, GetNetwork(s)) == s
    ensures SetNetwork(SetNetwork(s, p), q) == SetNetwork(s, q)
  {
  }

  /** The base factory's createRandomSimulation: a null simulation pointer. */
  function BaseCreateRandomSimulation<B>(): (r: Option<Sim<B>>)
    ensures r.None? && !CanCross(r)
  {
    None
  }

  /** A simulation plus the heap after any allocation. */
  datatype Made<B> = Made(sim: Sim<B>, heap: Heap)

  /** The base factory's createCrossover dereferences what createRandomSimulation returned: it must not be null. */
  predicate CanCross<B>(created: Option<Sim<B>>) {
    created.Some?
  }

  /** The base factory alone cannot breed: its createRandomSimulation yields the null pointer. */
  lemma BaseFactoryCannotCross<B>()
    ensures !CanCross(BaseCreateRandomSimulation<B>())
  {
  }

  /**
   * The base createCrossover: uniform crossover of the two parents' networks
   * (null when the structures differ), stored in a fresh heap cell and set on
   * the simulation that the (overriding) createRandomSimulation returned,
   * passed here as `created`. The mutation rate is not used.
   */
  function CreateCrossover<B>(a: Sim<B>, b: Sim<B>, heap: Heap, draw: nat -> bool, created: Option<Sim<B>>): (r: Made<B>)
    requires Points(heap, a.network) && Points(heap, b.network)
    requires Networks.Valid(Deref(heap, a.network)) && Networks.Valid(Deref(heap, b.network))
    requires |Deref(heap, a.network).structure| <= |Deref(heap, b.network).structure|
    requires CanCross(created)
    ensures |heap| <= |r.heap| && r.heap[..|heap|] == heap
    ensures r.sim.alive == created.value.alive && r.sim.body == created.value.body
    ensures var A := Deref(heap, a.network); var B := Deref(heap, b.network);
            && (r.sim.network.Ptr? <==> Genetic.StructureMatches(A, B))
            && (r.sim.network.Ptr? ==>
                  Points(r.heap, r.sim.network) && r.sim.network.addr == |heap|
                  && Deref(r.heap, r.sim.network) == Genetic.Crossover(A, B, draw).value)
    ensures r.sim.network.Null? ==> r.heap == heap
  {
    var child := Genetic.Crossover(Deref(heap, a.network), Deref(heap, b.network), draw);
    if child.Some? then
      Made(SetNetwork(created.value, Ptr(|heap|)), heap + [child.value])
    else
      Made(SetNetwork(created.value, Null), heap)
  }
}

=== FILE: text.dfy ===
/**
 * The text helpers the face data reader relies on: splitting at a separator
 * with empty parts kept, and reading a decimal int the way a C-locale integer
 * conversion does (surrounding white space, optional sign, 32-bit range).
 */
module Text {
  import opened Wrappers

  /** The parts of `s` between occurrences of `sep`; empty parts are kept, so there is one more part than separators. */
  function Split(s: string, sep: char): (parts: seq<string>)
    ensures |parts| >= 1
    ensures forall i, j :: 0 <= i < |parts| && 0 <= j < |parts[i]| ==> parts[i][j] != sep
  {
    if |s| == 0 then [""]
    else if s[0] == sep then [""] + Split(s[1..], sep)
    else
      var t := Split(s[1..], sep);
      [[s[0]] + t[0]] + t[1..]
  }

  /** The parts glued back together with `sep` between neighbours. */
  function Join(parts: seq<string>, sep: char): string
    requires |parts| >= 1
  {
    if |parts| == 1 then parts[0] else parts[0] + [sep] + Join(parts[1..], sep)
  }

  function Count(s: string, c: char): nat {
    if |s| == 0 then 0 else (if s[0] == c then 1 else 0) + Count(s[1..], c)
  }

  /** One part more than there are separators. */
  lemma {:induction false} SplitCount(s: string, sep: char)
    ensures |Split(s, sep)| == Count(s, sep) + 1
  {
    if |s| > 0 {
      SplitCount(s[1..], sep);
    }
  }

  /** Joining the parts restores the text. */
  lemma {:induction false} JoinSplit(s: string, sep: char)
    ensures Join(Split(s, sep), sep) == s
  {
    if |s| > 0 {
      JoinSplit(s[1..], sep);
      var t := Split(s[1..], sep);
      if s[0] != sep {
        if |t| == 1 {
          assert Join(t, sep) == t[0];
        } else {
          assert Join(t, sep) == t[0] + [sep] + Join(t[1..], sep);
          assert ([[s[0]] + t[0]] + t[1..])[1..] == t[1..];
        }
      } else {
        assert ([""] + t)[1..] == t;
      }
    }
  }

  /** Splitting a join of separator-free parts gives the parts back. */
  lemma {:induction false} SplitJoin(parts: seq<string>, sep: char)
    requires |parts| >= 1
    requires forall i, j :: 0 <= i < |parts| && 0 <= j < |parts[i]| ==> parts[i][j] != sep
    ensures Split(Join(parts, sep), sep) == parts
    decreases parts, 0
  {
    if |parts| == 1 {
      SplitPlain(parts[0], [], sep);
      assert parts[0] + [] == parts[0];
    } else {
      SplitJoin(parts[1..], sep);
      var rest := [sep] + Join(parts[1..], sep);
      SplitPlain(parts[0], rest, sep);
      assert Join(parts, sep) == parts[0] + rest;
      assert rest[1..] == Join(parts[1..], sep);
      assert parts == [parts[0]] + parts[1..];
    }
  }

  /**
   * A separator-free prefix `w` followed by `rest`: with rest empty the split
   * is [w]; otherwise w joins the first part of splitting what follows the
   * separator.
   */
  lemma {:induction false} SplitPlain(w: string, rest: string, sep: char)
    requires forall j :: 0 <= j < |w| ==> w[j] != sep
    ensures |rest| == 0 ==> Split(w + rest, sep) == [w]
    ensures |rest| > 0 && rest[0] == sep ==> Split(w + rest, sep) == [w] + Split(rest[1..], sep)
    decreases |w|
  {
    if |w| > 0 {
      SplitPlain(w[1..], rest, sep);
      assert (w + rest)[1..] == w[1..] + rest;
      assert [w[0]] + w[1..] == w;
    } else {
      assert w + rest == rest;
    }
  }

  /** Splitting a comma-free word, a separator and a tail: the word, then the tail's parts. */
  lemma SplitAfterWord(w: string, rest: string, sep: char, tailParts: seq<string>)
    requires forall j :: 0 <= j < |w| ==> w[j] != sep
    requires |rest| > 0 && rest[0] == sep && Split(rest[1..], sep) == tailParts
    ensures Split(w + rest, sep) == [w] + tailParts
  {
    SplitPlain(w, rest, sep);
  }

  predicate IsSpace(c: char) {
    c == ' ' || c == '\t' || c == '\n' || c == '\r' || c == '\U{B}' || c == '\U{C}'
  }

  predicate IsDigit(c: char) {
    '0' <= c <= '9'
  }

  /** `s` without leading and trailing white space. */
  function Trim(s: string): (t: string)
    ensures |t| <= |s|
    ensures |t| > 0 ==> !IsSpace(t[0]) && !IsSpace(t[|t| - 1])
    decreases |s|
  {
    if |s| > 0 && IsSpace(s[0]) then Trim(s[1..])
    else if |s| > 0 && IsSpace(s[|s| - 1]) then Trim(s[..|s| - 1])
    else s
  }

  /** The value of a string of decimal digits, most significant first. */
  function DigitsValue(ds: string): nat
    requires forall i :: 0 <= i < |ds| ==> IsDigit(ds[i])
  {
    if |ds| == 0 then 0
    else
      assert IsDigit(ds[|ds| - 1]);
      DigitsValue(ds[..|ds| - 1]) * 10 + (ds[|ds| - 1] as int - '0' as int)
  }

  const IntMin: int := -0x8000_0000
  const IntMax: int := 0x7FFF_FFFF

  /**
   * toInt (base 10): after trimming white space, an optional sign and at least
   * one digit, nothing else; the value must fit a 32-bit int. None when the
   * conversion reports failure.
   */
  function ToInt(s: string): (r: Option<int>)
    ensures r.Some? ==> IntMin <= r.value <= IntMax
  {
    ParseTrimmed(Trim(s))
  }

  /** The conversion of a trimmed token: optional sign, then digits only. */
  function ParseTrimmed(t: string): (r: Option<int>)
    ensures r.Some? ==> IntMin <= r.value <= IntMax
  {
    var negative := |t| > 0 && t[0] == '-';
    var body := if |t| > 0 && (t[0] == '-' || t[0] == '+') then t[1..] else t;
    if |body| == 0 || exists i :: 0 <= i < |body| && !IsDigit(body[i]) then None
    else
      var v := if negative then -(DigitsValue(body) as int) else DigitsValue(body) as int;
      if IntMin <= v <= IntMax then Some(v) else None
  }

  /** The decimal digits of n, without leading zeros. */
  function NatDigits(n: nat): (ds: string)
    ensures |ds| >= 1 && forall i :: 0 <= i < |ds| ==> IsDigit(ds[i])
  {
    if n < 10 then [('0' as int + n) as char]
    else NatDigits(n / 10) + [('0' as int + n % 10) as char]
  }

  /** The decimal form of an int: a minus sign for negatives, then the digits. */
  function Decimal(v: int): string {
    if v < 0 then "-" + NatDigits(-v) else NatDigits(v)
  }

  /** Reading the digits of n gives n. */
  lemma {:induction false} DigitsRoundTrip(n: nat)
    ensures DigitsValue(NatDigits(n)) == n
  {
    if n >= 10 {
      DigitsRoundTrip(n / 10);
      var ds := NatDigits(n);
      assert ds[..|ds| - 1] == NatDigits(n / 10);
    }
  }

  /** A string with no white space at either end is its own trim. */
  lemma TrimKeeps(s: string)
    requires |s| > 0 && !IsSpace(s[0]) && !IsSpace(s[|s| - 1])
    ensures Trim(s) == s
  {
  }

  /** A leading blank does not change the conversion. */
  lemma ToIntSkipsLeadingBlank(s: string)
    ensures ToInt(" " + s) == ToInt(s)
  {
    assert (" " + s)[1..] == s;
    assert Trim(" " + s) == Trim(s);
  }

  /** Every 32-bit int written in decimal reads back as itself. */
  lemma ToIntDecimal(v: int)
    requires IntMin <= v <= IntMax
    ensures ToInt(Decimal(v)) == Some(v)
  {
    var s := Decimal(v);
    TrimKeeps(s);
    var ds := NatDigits(if v < 0 then -v else v);
    assert !exists i :: 0 <= i < |ds| && !IsDigit(ds[i]);
    assert DigitsValue(ds) == (if v < 0 then -v else v) by {
      DigitsRoundTrip(if v < 0 then -v else v);
    }
    if v < 0 {
      assert s[0] == '-' && s[1..] == ds;
    } else {
      assert s == ds && IsDigit(s[0]);
    }
  }

  /** An empty token, a blank token and a lone minus sign are all rejected. */
  lemma ToIntRejectsEmpty()
    ensures ToInt("").None? && ToInt(" ").None? && ToInt("-").None?
  {
    assert Trim(" ") == Trim("");
  }
}

=== FILE: track.dfy ===
/**
 * Track (car example): a named race track loaded from an image. Its driving
 * grid marks the pixels painted in the track colour.
 */
module Tracks {
  import opened Matrices
  import TrackMaps

  datatype Rgb = Rgb(red: int, green: int, blue: int)

  /** An image: `rows` is its height, `cols` its width; pixel (m, n) is row m, column n. */
  type Image = Mat<Rgb>

  /** The colour of the racing surface. */
  const TrackColour := Rgb(165, 172, 182)

  datatype Track = Track(name: string, image: Image)

  function GetName(t: Track): (r: string)
    ensures r == t.name
  {
    t.name
  }

  /**
   * createMap: a grid of the image's height and width, 1 where the pixel has the
   * track colour (all three channels equal) and 0 elsewhere.
   */
  function CreateMap(img: Image): (grid: Mat<int>)
    requires img.Valid()
    ensures grid.Valid() && grid.rows == img.rows && grid.cols == img.cols
    ensures forall m, n :: 0 <= m < img.rows && 0 <= n < img.cols ==>
              (grid.At(m, n) == 1 <==> img.At(m, n) == TrackColour)
              && (grid.At(m, n) == 0 <==> img.At(m, n) != TrackColour)
  {
    Mat(img.rows, img.cols,
      seq(img.rows, m requires 0 <= m < img.rows =>
        seq(img.cols, n requires 0 <= n < img.cols =>
          var c := img.At(m, n);
          if c.red == 165 && c.green == 172 && c.blue == 182 then 1 else 0)))
  }

  /** A car at a whole-pixel position may drive there exactly when that pixel is painted in the track colour. */
  lemma DrivableIffTrackColour(img: Image, n: int, m: int)
    requires img.Valid()
    ensures TrackMaps.PositionValidIn(CreateMap(img), TrackMaps.Pos(n as real, m as real)) <==>
              0 <= m < img.rows && 0 <= n < img.cols && img.At(m, n) == TrackColour
  {
    TrackMaps.GridPositionValidity(CreateMap(img), n, m);
  }
}

=== FILE: trackmap.dfy ===
/**
 * TrackMap (car example): an integer grid telling where a car may drive. A cell
 * with a positive value is drivable. Positions are real (x = column, y = row) and
 * are looked up at the cell (ceil y, ceil x). An optional dynamic map (moving
 * obstacles) further restricts the drivable area while it is set.
 */
module TrackMaps {
  import opened Matrices

  datatype Pos = Pos(x: real, y: real)

  datatype TrackMap = TrackMap(grid: Mat<int>, dynamicMap: Mat<int>, dynamicSet: bool)

  ghost predicate Valid(tm: TrackMap) {
    tm.grid.Valid() && tm.dynamicMap.Valid()
  }

  /** A default-constructed Eigen matrix: no rows and no columns. */
  function EmptyMap(): (e: Mat<int>)
    ensures e.Valid()
  {
    Mat(0, 0, [])
  }

  /** std::ceil over the reals. */
  function Ceil(r: real): (c: int)
    ensures r <= c as real < r + 1.0
  {
    -((-r).Floor)
  }

  /** The position lies in the closed box [0, cols-1] x [0, rows-1] that the validity check accepts. */
  predicate InRange(grid: Mat<int>, p: Pos) {
    !(p.x < 0.0 || p.x > (grid.cols - 1) as real || p.y < 0.0 || p.y > (grid.rows - 1) as real)
  }

  /**
   * isPositionValid(map, pos): false outside the box; inside, the cell at
   * (ceil y, ceil x) must hold a positive value.
   */
  predicate PositionValidIn(grid: Mat<int>, p: Pos)
    requires grid.Valid()
    ensures PositionValidIn(grid, p) ==>
              && 0.0 <= p.x <= (grid.cols - 1) as real && 0.0 <= p.y <= (grid.rows - 1) as real
              && grid.At(Ceil(p.y), Ceil(p.x)) > 0
  {
    if p.x < 0.0 || p.x > (grid.cols - 1) as real || p.y < 0.0 || p.y > (grid.rows - 1) as real then false
    else grid.At(Ceil(p.y), Ceil(p.x)) > 0
  }

  /** Rounding a position inside the box up to whole cells never leaves the grid. */
  lemma CeilIndexInBounds(grid: Mat<int>, p: Pos)
    requires InRange(grid, p)
    ensures 0 <= Ceil(p.y) < grid.rows && 0 <= Ceil(p.x) < grid.cols
  {
  }

  /** At whole-number positions the check reads exactly the cell (m, n). */
  lemma GridPositionValidity(grid: Mat<int>, n: int, m: int)
    requires grid.Valid()
    ensures PositionValidIn(grid, Pos(n as real, m as real)) <==>
              0 <= m < grid.rows && 0 <= n < grid.cols && grid.At(m, n) > 0
  {
    assert Ceil(n as real) == n && Ceil(m as real) == m;
  }

  /**
   * The member isPositionValid(pos): the static map's verdict, and while a
   * dynamic map is set, also the dynamic map's verdict.
   */
  predicate IsPositionValid(tm: TrackMap, p: Pos)
    requires Valid(tm)
    ensures IsPositionValid(tm, p) <==>
              PositionValidIn(tm.grid, p) && (tm.dynamicSet ==> PositionValidIn(tm.dynamicMap, p))
  {
    var valid := PositionValidIn(tm.grid, p);
    if valid && tm.dynamicSet then PositionValidIn(tm.dynamicMap, p) else valid
  }

  /** setDynamicMap: stores the dynamic map and switches it on. */
  function SetDynamicMap(tm: TrackMap, d: Mat<int>): (r: TrackMap)
    requires Valid(tm) && d.Valid()
    ensures Valid(r) && r.grid == tm.grid
    ensures forall p :: IsPositionValid(r, p) <==> PositionValidIn(tm.grid, p) && PositionValidIn(d, p)
  {
    tm.(dynamicSet := true, dynamicMap := d)
  }

  /** clearDynamicMap: switches the dynamic map off, so only the static map decides. */
  function ClearDynamicMap(tm: TrackMap): (r: TrackMap)
    requires Valid(tm)
    ensures Valid(r) && r.grid == tm.grid
    ensures forall p :: IsPositionValid(r, p) <==> PositionValidIn(tm.grid, p)
  {
    tm.(dynamicSet := false)
  }

  /** resetMap: the given grid becomes the static map unchanged (no distance transform). */
  function ResetMap(tm: TrackMap, grid: Mat<int>): (r: TrackMap)
    requires Valid(tm) && grid.Valid()
    ensures Valid(r) && r.grid == grid
    ensures r.dynamicSet == tm.dynamicSet && r.dynamicMap == tm.dynamicMap
  {
    tm.(grid := grid)
  }

  /** createAllValidMap: an all-ones grid of the static map's size, on which every in-box position is valid. */
  function CreateAllValidMap(tm: TrackMap): (r: Mat<int>)
    requires Valid(tm)
    ensures r.Valid() && r.rows == tm.grid.rows && r.cols == tm.grid.cols
    ensures forall p :: PositionValidIn(r, p) <==> InRange(tm.grid, p)
  {
    Constant(tm.grid.rows, tm.grid.cols, 1)
  }

  /** The probe used while measuring distances: a whole-number position checked by a track map's member check. */
  predicate Probe(probe: TrackMap, x: int, y: int)
    requires Valid(probe)
  {
    IsPositionValid(probe, Pos(x as real, y as real))
  }

  /** The probe at offset i on the line r rows above (n, m). */
  predicate LineProbe(probe: TrackMap, n: int, m: int, r: nat, i: int)
    requires Valid(probe)
  {
    Probe(probe, n + i, m - r)
  }

  /** The horizontal line r rows above (n, m), from column n-r to n+r, passes the probe everywhere. */
  predicate LineValid(probe: TrackMap, n: int, m: int, r: nat)
    requires Valid(probe)
  {
    forall i :: -(r as int) <= i <= r ==> LineProbe(probe, n, m, r, i)
  }

  /**
   * The radius loop of computeDistanceMap: grow r while r is below the bound and
   * the line r rows above is clear.
   */
  function Radius(probe: TrackMap, n: int, m: int, r: nat, bound: nat): (d: nat)
    requires Valid(probe) && r >= 1
    decreases bound - r
    ensures r <= d
    ensures r < bound ==> d <= bound
    ensures r >= bound ==> d == r
    ensures forall j :: r <= j < d ==> LineValid(probe, n, m, j)
    ensures d < bound ==> !LineValid(probe, n, m, d)
  {
    if r < bound && LineValid(probe, n, m, r) then Radius(probe, n, m, r + 1, bound) else r
  }

  function Min(a: nat, b: nat): nat {
    if a <= b then a else b
  }

  function Max(a: nat, b: nat): nat {
    if a >= b then a else b
  }

  /**
   * computeDistanceMap as written: a cell invalid in `map` gets 0; a valid cell
   * gets the radius found by the loop, whose line probes go through the member
   * check of `probe`, the track map object the method is called on (not the
   * argument).
   */
  function DistanceMap(probe: TrackMap, grid: Mat<int>): (d: Mat<int>)
    requires Valid(probe) && grid.Valid()
    ensures d.Valid() && d.rows == grid.rows && d.cols == grid.cols
    ensures forall m, n :: 0 <= m < grid.rows && 0 <= n < grid.cols ==>
              (grid.At(m, n) <= 0 ==> d.At(m, n) == 0)
              && (grid.At(m, n) > 0 ==> 1 <= d.At(m, n) <= Max(1, Min(grid.rows, grid.cols)))
    ensures forall m, n :: 0 <= m < grid.rows && 0 <= n < grid.cols && grid.At(m, n) > 0 ==>
              d.At(m, n) == Radius(probe, n, m, 1, Min(grid.rows, grid.cols))
  {
    Mat(grid.rows, grid.cols,
      seq(grid.rows, m requires 0 <= m < grid.rows =>
        seq(grid.cols, n requires 0 <= n < grid.cols =>
          CellDistance(probe, grid, m, n))))
  }

  /** The value computeDistanceMap stores at cell (m, n). */
  function CellDistance(probe: TrackMap, grid: Mat<int>, m: nat, n: nat): (v: int)
    requires Valid(probe) && grid.Valid() && m < grid.rows && n < grid.cols
    ensures grid.At(m, n) <= 0 ==> v == 0
    ensures grid.At(m, n) > 0 ==> v == Radius(probe, n, m, 1, Min(grid.rows, grid.cols))
  {
    GridPositionValidity(grid, n, m);
    if PositionValidIn(grid, Pos(n as real, m as real)) then Radius(probe, n, m, 1, Min(grid.rows, grid.cols)) else 0
  }

  /**
   * TrackMap(map) as written: the static map becomes the distance map of the
   * argument, computed while the object's own static map is still the empty
   * default, so every line probe fails.
   */
  function New(grid: Mat<int>): (tm: TrackMap)
    requires grid.Valid()
    ensures Valid(tm) && !tm.dynamicSet
    ensures tm.grid.rows == grid.rows && tm.grid.cols == grid.cols
  {
    TrackMap(DistanceMap(TrackMap(EmptyMap(), EmptyMap(), false), grid), EmptyMap(), false)
  }

  /** With the empty map as probe the radius loop never grows: every drivable cell gets 1. */
  lemma ConstructorDistanceIsFlat(grid: Mat<int>)
    requires grid.Valid()
    ensures forall m, n :: 0 <= m < grid.rows && 0 <= n < grid.cols ==>
              New(grid).grid.At(m, n) == (if grid.At(m, n) > 0 then 1 else 0)
  {
    var empty := TrackMap(EmptyMap(), EmptyMap(), false);
    forall m, n | 0 <= m < grid.rows && 0 <= n < grid.cols && grid.At(m, n) > 0
      ensures Radius(empty, n, m, 1, Min(grid.rows, grid.cols)) == 1
    {
      assert !LineProbe(empty, n, m, 1, 0);
      assert !LineValid(empty, n, m, 1);
    }
  }

  /** Concrete case: on a clear 3 x 3 grid the constructor gives cell (2, 1) the value 1. */
  lemma ConstructorExample()
    ensures New(Constant(3, 3, 1)).grid.At(2, 1) == 1
  {
    ConstructorDistanceIsFlat(Constant(3, 3, 1));
  }

  /** A track map that checks positions against `map` alone. */
  function StaticOnly(grid: Mat<int>): (tm: TrackMap)
    requires grid.Valid()
    ensures Valid(tm) && forall p :: IsPositionValid(tm, p) <==> PositionValidIn(grid, p)
  {
    TrackMap(grid, EmptyMap(), false)
  }

  /** The line j rows above (n, m), columns n-j .. n+j, is drivable in `grid` itself. */
  predicate LineClear(grid: Mat<int>, n: int, m: int, j: nat)
    requires grid.Valid()
  {
    LineValid(StaticOnly(grid), n, m, j)
  }

  /**
   * The distance map as evidently intended: the line probes check the argument
   * itself. The value r of a drivable cell then means: the lines 1 .. r-1 rows
   * above the cell are drivable across their whole width, and line r is not
   * (unless r reached the grid's smaller dimension).
   */
  function IntendedDistanceMap(grid: Mat<int>): (d: Mat<int>)
    requires grid.Valid()
    ensures d.Valid() && d.rows == grid.rows && d.cols == grid.cols
    ensures forall m, n :: 0 <= m < grid.rows && 0 <= n < grid.cols ==>
              (grid.At(m, n) <= 0 ==> d.At(m, n) == 0)
              && (grid.At(m, n) > 0 ==> 1 <= d.At(m, n) <= Max(1, Min(grid.rows, grid.cols)))
    ensures forall m, n, j :: 0 <= m < grid.rows && 0 <= n < grid.cols && grid.At(m, n) > 0 && 1 <= j < d.At(m, n) ==>
              LineClear(grid, n, m, j)
    ensures forall m, n :: 0 <= m < grid.rows && 0 <= n < grid.cols && grid.At(m, n) > 0 && d.At(m, n) < Min(grid.rows, grid.cols) ==>
              !LineClear(grid, n, m, d.At(m, n))
  {
    DistanceMap(StaticOnly(grid), grid)
  }

  /** Constructor as evidently intended: the static map is the intended distance map of the argument. */
  function NewIntended(grid: Mat<int>): (tm: TrackMap)
    requires grid.Valid()
    ensures Valid(tm) && !tm.dynamicSet
    ensures tm.grid == IntendedDistanceMap(grid)
  {
    TrackMap(IntendedDistanceMap(grid), EmptyMap(), false)
  }

  /** On the clear 3 x 3 grid the intended distance of cell (2, 1) is 2, where the constructor stores 1. */
  lemma IntendedExample()
    ensures IntendedDistanceMap(Constant(3, 3, 1)).At(2, 1) == 2
  {
    var grid := Constant(3, 3, 1);
    var probe := StaticOnly(grid);
    forall i | -1 <= i <= 1
      ensures LineProbe(probe, 1, 2, 1, i)
    {
      GridPositionValidity(grid, 1 + i, 1);
    }
    assert LineValid(probe, 1, 2, 1);
    GridPositionValidity(grid, -1, 0);
    assert !LineProbe(probe, 1, 2, 2, -2);
    assert !LineValid(probe, 1, 2, 2);
    assert Radius(probe, 1, 2, 2, 3) == 2;
    assert Radius(probe, 1, 2, 1, 3) == 2;
  }

  /**
   * A distance map (either variant) accepts exactly the positions its source
   * grid accepts: the transform changes values, never drivability.
   */
  lemma DistanceMapKeepsValidity(probe: TrackMap, grid: Mat<int>, p: Pos)
    requires Valid(probe) && grid.Valid()
    ensures PositionValidIn(DistanceMap(probe, grid), p) <==> PositionValidIn(grid, p)
  {
  }

  /** The intended constructor accepts exactly the positions the source grid accepts. */
  lemma NewIntendedKeepsValidity(grid: Mat<int>, p: Pos)
    requires grid.Valid()
    ensures IsPositionValid(NewIntended(grid), p) <==> PositionValidIn(grid, p)
  {
    DistanceMapKeepsValidity(StaticOnly(grid), grid, p);
  }
}

=== FILE: wrappers.dfy ===
/** Small failure-carrying datatypes shared by the other modules. */
module Wrappers {

  /** A value that may be absent: the model's stand-in for a null pointer or a failed lookup. */
  datatype Option<+T> = None | Some(value: T)
}
